=== FILE: README.md ===
# Renogy BLE integration — a Dafny model

This project models the sequential core of the two generations of the Home
Assistant integration for Renogy charge controllers that talk Modbus over
Bluetooth Low Energy. It also proves properties of that model.

- **`custom_components/renogy`** (newer)
  - the Modbus RTU frame codec:
    - `modbus_crc`, the CRC-16/MODBUS of section 6.2.2 of the MODBUS over
      Serial Line Specification V1.02;
    - `create_modbus_read_request`, the Read Holding Registers request of
      section 6.3 of the MODBUS Application Protocol Specification V1.1b3.
  - the per-device availability state machine, including the
    rate-limited reconnection gate;
  - the validating merge of decoded telemetry;
  - the coordinator's poll session as a fold over per-command transport
    outcomes;
  - the poll decision `_needs_poll`;
  - `_async_poll`, the periodic `async_request_refresh` around it, and `_async_handle_unavailable`;
  - the listener list;
  - the constants of `const.py`.
- **`custom_components/renogy_ha`** (older)
  - the device's availability and telemetry merge;
  - the client's scan-interval clamp and `BT-TH-` name filter;
  - the discovered-device registry and the gated read;
  - from `sensor.py`:
    - the status-code tables;
    - the 24 sensor descriptions;
    - entity construction with unique ids;
    - the once-per-address discovery callback;
    - the value and availability of an entity.

Modules, one per file:

| module | file | models |
|---|---|---|
| `Common` | `common.dfy` | `Option`, telemetry values, the decoder's result, `dict.update` |
| `Bytes` | `bytes.dfy` | masking an integer to a byte, big-endian 16-bit fields |
| `FrameCodec` | `frame_codec.dfy` | CRC-16/MODBUS and the request frame |
| `Constants` | `constants.dfy` | `renogy/const.py` |
| `DeviceState` | `device_state.dfy` | `RenogyBLEDevice` of `renogy/ble.py` |
| `PollSession` | `poll_session.dfy` | `RenogyActiveBluetoothCoordinator` of `renogy/ble.py` |
| `LegacyClient` | `legacy_client.dfy` | `renogy_ha/ble.py` |
| `Sensors` | `sensors.dfy` | `renogy_ha/sensor.py` |

Modelling choices:

- **Clock.** The wall clock is an integer count of seconds passed in by the
  caller. `UNAVAILABLE_RETRY_INTERVAL` (10 minutes) becomes 600 seconds.
- **Decoder.** The external `RenogyParser.parse` is a function-typed parameter.
  It returns a field map or `Raised`, which stands for an exception the
  caller catches. Whether the library is installed is a boolean parameter.
- **Transport.** A poll session sees one outcome per command of the table:
  `Timeout`, `Notified(bytes)` or `WriteFailed`. It also sees whether
  connecting, `start_notify` and `stop_notify` succeeded.
- **CRC register.** The Python CRC register is an unbounded int. It never
  leaves 16 bits: it starts at 0xFFFF, XORs in bytes and 0xA001, and only
  shifts right. So the model uses a `bv16` register, which is exact.
- **Byte masking.** `x & 0xFF` on a Python int of any sign is `x % 256`
  with Dafny's Euclidean `%`. `x >> 8` is `x / 256`, since both floor.
  `bytearray` raises `ValueError` for a device id or function code outside
  0..255, which is `None` in the model.
- **Docstring versus code.** The docstring of `create_modbus_read_request`
  (`renogy/ble.py:68-69`) lists the CRC as high byte then low byte. The code
  appends the low byte first (`renogy/ble.py:82-83`), as Modbus RTU
  requires. The model follows the code. `ResidueZero` shows that only this
  order makes a frame check to zero.
- **Legacy request bytes; no response CRC.** The older integration's three request byte
  strings (`renogy_ha/ble.py:36-38`) are bare Read Holding Registers headers
  without the unit id and without a CRC. Neither integration checks the CRC
  of a response.

## Model

| member | source | states |
|---|---|---|
| Common.Merge | custom_components/renogy/ble.py:247 | `dict.update`: the keys are the union, the update's values win, and the other old values are kept |
| FrameCodec.ModbusCrc | custom_components/renogy/ble.py:46-59 | the bitwise loop returns the low and high byte of CRC-16/MODBUS of the data (preset 0xFFFF, reflected polynomial 0xA001, LSB first, no final XOR), as defined by the byte-wise fold |
| FrameCodec.CheckValue | custom_components/renogy/ble.py:46-59 | the fold gives the standard check value 0x4B37 on ASCII "123456789", pinning it to CRC-16/MODBUS |
| FrameCodec.ResidueZero | custom_components/renogy/ble.py:46-59 | two further bytes drive any register state to zero exactly when they are its low byte then its high byte |
| FrameCodec.CrcValidIffResidueZero | custom_components/renogy/ble.py:46-59 | a frame's two-byte trailer is its CRC, low byte first, if and only if the CRC of the whole frame is zero |
| FrameCodec.AppendCrcIsValid | custom_components/renogy/ble.py:81-83 | appending the CRC low byte first always gives a frame that checks |
| FrameCodec.ReadRequest | custom_components/renogy/ble.py:62-85 | a frame exists exactly when device id and function code are bytes (`bytearray` raises otherwise), and it is 8 bytes long |
| FrameCodec.ReadRequestLayout | custom_components/renogy/ble.py:62-85 | bytes 0 and 1 are the id and function code; bytes 2-3 and 4-5 read back big-endian as register and word count modulo 65536, and exactly when in range; bytes 6-7 are the CRC of the header, low byte first |
| FrameCodec.ReadRequestChecks | custom_components/renogy/ble.py:62-85 | every request frame's trailer is valid, and `modbus_crc` over all 8 bytes yields (0, 0) |
| FrameCodec.PvRequestBytes | custom_components/renogy/ble.py:62-85 | the controller's `pv` command (3, 256, 34) sent to unit 0xFF is `FF 03 01 00 00 22 D1 F1` |
| Bytes.BigEndianRoundTrip | custom_components/renogy/ble.py:76-79 | the masked high and low bytes of any integer read back big-endian as that integer modulo 65536 |
| Constants.Commands | custom_components/renogy/const.py:58-65 | `COMMANDS[type]` is defined exactly for the types with a table, and every command in it fits the request header |
| Constants.ControllerTable | custom_components/renogy/const.py:58-65 | the controller table has four commands, all function code 3, with distinct names, in the order device_info, device_id, battery, pv |
| Constants.ConfigurationConsistent | custom_components/renogy/const.py:11-55 | the default type has a table; supported types ⊆ table types ⊆ declared types; battery and inverter have no table; 10 ≤ 60 ≤ 600; the retry interval is positive; the unit id is a byte |
| DeviceState.DisplayName | custom_components/renogy/ble.py:100 | `name or "Unknown Renogy Device"`: the advertised name when that is non-empty, and "Unknown Renogy Device" when it is missing or empty |
| DeviceState.NewDevice | custom_components/renogy/ble.py:88-117 | a new device is available and consistent, has no telemetry and no stamp, and carries its address, type, display name (`name or "Unknown Renogy Device"`), RSSI and the clock as last seen |
| DeviceState.UpdateAvailability | custom_components/renogy/ble.py:150-180 | success resets the count and makes the device available; failure adds one to the count; the flag drops exactly when the count reaches 3 on an available device; the stamp changes only when the flag flips, is set to now when it drops and cleared when it rises; consistency is preserved |
| DeviceState.ShouldRetryConnection | custom_components/renogy/ble.py:124-148 | yes when available; otherwise yes exactly when a stamp exists and 600 s have passed, then restamped to now; with no stamp it stamps now and says no; nothing else changes. The coordinator never calls this gate |
| DeviceState.UpdateParsedData | custom_components/renogy/ble.py:182-270 | accepted exactly when the response is non-empty, the parser is installed, the response is at least 5 bytes with bit 0x80 clear in byte 1, and the decoder returns a non-empty map; a rejection changes nothing, an acceptance merges the map |
| DeviceState.ReplayKeepsConsistent | custom_components/renogy/ble.py:150-180 | any history of outcomes keeps `available ⇔ count < 3` and `available ⇔ no stamp`, so `is_available == available` |
| DeviceState.FailureRun | custom_components/renogy/ble.py:165-180 | from a fresh counter, k failures leave the count at k and the device available exactly while k < 3; the stamp is the clock of the third failure |
| DeviceState.RecoveryAfterSuccess | custom_components/renogy/ble.py:152-163 | one success restores an unavailable device, zeroing its count and clearing its stamp |
| DeviceState.NoStampBranchUnreachable | custom_components/renogy/ble.py:131-134 | on a consistent unavailable device the stamp is set, so the gate answers by the 600 s test alone |
| DeviceState.RetryRateLimited | custom_components/renogy/ble.py:124-148 | while a device stays unavailable, successive openings of the gate are at least 600 s apart, and the first is at least 600 s after the existing stamp. This is a property of the method alone: no code path of the coordinator calls `should_retry_connection` |
| DeviceState.RejectedShapeIgnoresDecoder | custom_components/renogy/ble.py:213-236 | a response that is too short or carries the exception bit is rejected before the decoder is consulted |
| DeviceState.MergeKeepsKeys | custom_components/renogy/ble.py:247 | a merge never loses a key |
| DeviceState.CrcNotChecked | custom_components/renogy/ble.py:210-247 | flipping a bit of the CRC trailer keeps the shape checks passing, so a frame with a bad CRC is accepted whenever the decoder returns fields |
| PollSession.RequestFrame | custom_components/renogy/ble.py:579-581 | the frame written for a command is 8 bytes, addressed to 0xFF, CRC-clean, and carries the command's register and word count |
| PollSession.RunCommands | custom_components/renogy/ble.py:575-627 | the loop changes only the telemetry; it completes exactly when no write fails; it writes the commands before the first failure, in table order; something parses exactly when the harvest is non-empty |
| PollSession.RunCommandsMerges | custom_components/renogy/ble.py:575-627 | the loop's telemetry is the old telemetry updated, in order, with every accepted reply's fields before the first transport failure |
| PollSession.Session | custom_components/renogy/ble.py:546-672 | success exactly when the loop runs, completes, `stop_notify` returns, and something parsed; `update_availability(success)` runs once; without a loop nothing is sent or merged |
| PollSession.SessionTelemetry | custom_components/renogy/ble.py:575-630 | after a session the telemetry is the harvest merged in order, and the frames written are the table's, in order |
| PollSession.HarvestNonEmptyIff | custom_components/renogy/ble.py:612-621 | something parsed exactly when some command before the first transport failure has an accepted reply |
| PollSession.SingleReplyHarvest | custom_components/renogy/ble.py:597-621 | with every other reply a timeout, the harvest is exactly the one accepted reply's fields |
| PollSession.PartialSuccess | custom_components/renogy/ble.py:597-630 | one accepted reply among timeouts makes the session succeed, resets the count, and merges exactly that reply |
| PollSession.MidLoopFailureKeepsEarlierMerges | custom_components/renogy/ble.py:631-639 | a transport failure mid-loop fails the session, adds one failure, and keeps what earlier commands merged |
| PollSession.AllTimeoutsFail | custom_components/renogy/ble.py:597-630 | all timeouts: every frame is written, nothing is merged, and the session counts as one failure |
| PollSession.SessionWritesTableInOrder | custom_components/renogy/ble.py:575-591 | the i-th frame written is the request for the i-th command of the table |
| PollSession.PrepareDevice | custom_components/renogy/ble.py:493-537 | the first poll creates the device; later polls refresh name (unless empty or the default), RSSI (advertisement first) and type, and change nothing else: address, last-seen time, counters, stamp and telemetry are kept |
| PollSession.ReadDeviceData | custom_components/renogy/ble.py:486-674 | the stored device is the result of one session on the prepared device, so it carries the merged telemetry and the single availability update; the session's success is recorded as `last_update_success`; `data` is replaced by the telemetry exactly when the session succeeds with non-empty telemetry; the in-progress flag ends false |
| PollSession.Poll | custom_components/renogy/ble.py:676-707 | `_async_poll` itself: skipped while a connection is in progress; otherwise stamps the poll time and stores the session's device; listeners are notified exactly when the session succeeds and leaves telemetry, which is then published; otherwise `data` is unchanged. `RequestRefresh` overrides the flag on the periodic path |
| PollSession.RequestRefresh | custom_components/renogy/ble.py:329-363 | skipped while a connection is in progress; without service info only `last_update_success` drops; a poll that returns leaves `last_update_success` true and notifies the listeners, whatever the read gave; a poll that raises before its session adds one failure to the prepared device; a listener that raises after a notifying session adds one failure to the session's device, keeping its merges and the published `data`; neither runs the refresh's own notification loop; the device stays consistent |
| PollSession.ListenerFailureKeepsSession | custom_components/renogy/ble.py:353-363 | after a successful session, a raising listener leaves the merged telemetry and published `data` in place, and the device at count 1 and still available, with `last_update_success` false |
| PollSession.RefreshReportsFailedRead | custom_components/renogy/ble.py:346-352 | on the periodic path a failed read, which `_async_poll` records as `False`, ends with `last_update_success` true and the listeners notified |
| PollSession.HandleUnavailable | custom_components/renogy/ble.py:709-719 | the device, if any, counts one more failure and nothing else about it changes; `last_update_success` drops; consistency is kept |
| PollSession.PollKeepsConsistent | custom_components/renogy/ble.py:486-707 | a poll keeps the coordinator's device consistent |
| PollSession.PollsKeepConsistent | custom_components/renogy/ble.py:486-707 | from no device or a consistent one, any sequence of polls leaves the device available exactly while its count is below 3, and stamped exactly while unavailable |
| PollSession.NeedsPoll | custom_components/renogy/ble.py:443-484 | never without a running host, a connectable device and no connection in progress; always on the first poll; otherwise only once the interval has passed |
| PollSession.NeedsPollMonotone | custom_components/renogy/ble.py:443-484 | a due poll stays due as time passes |
| PollSession.NeedsPollThreshold | custom_components/renogy/ble.py:474-476 | a poll is due exactly when at least `scan_interval` seconds have passed |
| PollSession.AddListener | custom_components/renogy/ble.py:365-370 | the callback is registered, nothing else is added, the old list is a prefix of the new one, and duplicates never arise |
| PollSession.RemoveListener | custom_components/renogy/ble.py:372-375 | absent: no change; present: the first occurrence goes and the other listeners stay, in their order |
| PollSession.AddListenerIdempotent | custom_components/renogy/ble.py:365-370 | registering twice equals registering once |
| PollSession.RemoveUndoesAdd | custom_components/renogy/ble.py:365-377 | removing a freshly added listener restores the list |
| PollSession.RemoveFromDistinct | custom_components/renogy/ble.py:372-375 | in a duplicate-free list, removal takes the listener out completely |
| LegacyClient.NewDevice | custom_components/renogy_ha/ble.py:44-62 | a new device is available and consistent, has no telemetry, and carries the advertisement's handle, address and RSSI, the name or "Unknown Renogy Device", the model "rover" handed to the decoder, and the clock as last seen |
| LegacyClient.UpdateAvailability | custom_components/renogy_ha/ble.py:69-84 | success resets the count and makes the device available; failure adds one; the flag drops exactly when the count reaches 3 on an available device; consistency is preserved |
| LegacyClient.FailureRun | custom_components/renogy_ha/ble.py:76-84 | from a fresh counter, k failures leave the count at k and the device available exactly while k < 3 |
| LegacyClient.RecoveryAfterSuccess | custom_components/renogy_ha/ble.py:71-75 | a success after any history leaves the device available with a zero count |
| LegacyClient.UpdateParsedData | custom_components/renogy_ha/ble.py:86-110 | accepted exactly when the parser is installed and returns a non-empty map; a rejection changes nothing, an acceptance merges |
| LegacyClient.ClampScanInterval | custom_components/renogy_ha/ble.py:126-128 | the result lies in [10, 600], equals in-range inputs, and is the nearer bound otherwise |
| LegacyClient.ClampIdempotentAndMonotone | custom_components/renogy_ha/ble.py:126-128 | clamping is idempotent and order-preserving |
| LegacyClient.IsRenogyDeviceIff | custom_components/renogy_ha/ble.py:131-135 | a device matches exactly when it has a name of the form `"BT-TH-" + rest` |
| LegacyClient.MatchingAddresses | custom_components/renogy_ha/ble.py:145-163 | every address returned belongs to a matching advertisement, and every matching advertisement's address is returned |
| LegacyClient.MatchingAddressesSnoc | custom_components/renogy_ha/ble.py:145-163 | one more advertisement appends its address exactly when it matches, so the list keeps discovery order and repeats |
| LegacyClient.Register | custom_components/renogy_ha/ble.py:151-161 | a known device gets only its handle, RSSI and last-seen time refreshed, an unknown one is created fresh, and other entries are untouched |
| LegacyClient.ScanLoop | custom_components/renogy_ha/ble.py:145-166 | the scan returns the matching addresses in discovery order, and the registry gains exactly those |
| LegacyClient.ScanKeepsKnown | custom_components/renogy_ha/ble.py:152-158 | known devices keep counters, flag, telemetry, name and model; devices not seen are untouched |
| LegacyClient.ScanAddsFresh | custom_components/renogy_ha/ble.py:159-161 | every device the scan adds starts with a zero count, available, and no telemetry |
| LegacyClient.ScanKeepsWellKeyed | custom_components/renogy_ha/ble.py:152-161 | every registry entry stays filed under its own address |
| LegacyClient.ScanForDevices | custom_components/renogy_ha/ble.py:137-169 | a failing `discover()` yields an empty list and an untouched registry; otherwise the result is the scan loop's, so `ScanKeepsKnown`, `ScanAddsFresh` and `ScanKeepsWellKeyed` apply; the registry never loses an entry |
| LegacyClient.ReadDeviceData | custom_components/renogy_ha/ble.py:171-227 | an unavailable device is skipped untouched; otherwise the concatenated replies are merged exactly when accepted; when the `finally` block completes, the result is that acceptance and the count resets or grows by one; when the disconnect raises, the merge stays and the count and flag are untouched |
| LegacyClient.UnavailableStaysUnavailable | custom_components/renogy_ha/ble.py:175-179 | through reads alone an unavailable device never changes |
| LegacyClient.ReadsKeepConsistent | custom_components/renogy_ha/ble.py:171-227 | reads keep `available ⇔ count < 3` |
| LegacyClient.ThreeFailedReadsDisable | custom_components/renogy_ha/ble.py:217-225 | three failed reads from a fresh counter leave the device unavailable with count 3 |
| LegacyClient.LegacyCommandsAreBareHeaders | custom_components/renogy_ha/ble.py:36-38 | each legacy command is the Read Holding Registers header for registers 256, 272 and 12, count 8, without unit id and without CRC |
| Sensors.BatteryTypesTable | custom_components/renogy_ha/sensor.py:66 | the table maps exactly codes 0..4 to open, sealed, gel, lithium, custom, injectively and never to "unknown" |
| Sensors.ChargingStatusesTable | custom_components/renogy_ha/sensor.py:69-77 | the table maps exactly codes 0..6 to deactivated … current limiting, injectively and never to "unknown" |
| Sensors.LoadStatusesTable | custom_components/renogy_ha/sensor.py:80 | the table maps exactly codes 0 and 1 to off and on |
| Sensors.Lookup | custom_components/renogy_ha/sensor.py:128 | `TABLE.get(data.get(key), "unknown")` is "unknown" or one of the table's texts |
| Sensors.LookupDecodes | custom_components/renogy_ha/sensor.py:128 | "unknown" exactly when no table code is stored; equal known texts come from the same stored code |
| Sensors.StatusReadings | custom_components/renogy_ha/sensor.py:125-152 | codes in range read as their names; other codes, text values and missing keys read "unknown"; an integral float reads like the integer |
| Sensors.KeysDistinct | custom_components/renogy_ha/sensor.py:289 | `ALL_SENSORS` has 24 descriptions with pairwise distinct keys |
| Sensors.UniqueIdSameAddress | custom_components/renogy_ha/sensor.py:417 | for one address, ids are equal exactly when keys are |
| Sensors.UniqueIdInjective | custom_components/renogy_ha/sensor.py:417 | for addresses without `_`, the id determines both address and key |
| Sensors.CreateDeviceEntities | custom_components/renogy_ha/sensor.py:379-397 | the entities are exactly `ALL_SENSORS`, each built for the device with its category |
| Sensors.EntityLayout | custom_components/renogy_ha/sensor.py:379-441 | 24 entities; the i-th has the i-th description, id `address_key`, name `device name + " " + sensor name`, the device's availability, and the categories Battery, PV, Load, Controller in blocks of 8, 6, 5, 5 |
| Sensors.EntityIdsDistinct | custom_components/renogy_ha/sensor.py:379-417 | a device's entity ids are pairwise distinct |
| Sensors.DeviceDiscovered | custom_components/renogy_ha/sensor.py:309-342 | entities are created exactly for an available device whose address is not yet registered; the address is then registered and the device listed at most once; otherwise nothing changes |
| Sensors.DiscoveredKeepsTracked | custom_components/renogy_ha/sensor.py:309-342 | the callback preserves: no device listed twice, listed devices registered, and no entity id handed out twice |
| Sensors.EntitiesOncePerAddress | custom_components/renogy_ha/sensor.py:309-342 | over any run of discoveries, no entity id is handed out twice and no device is listed twice |
| Sensors.SecondDiscoveryAddsNothing | custom_components/renogy_ha/sensor.py:319-324 | a second discovery of an address that already has entities adds none |
| Sensors.NativeValue | custom_components/renogy_ha/sensor.py:466-501 | empty telemetry gives no value; otherwise a status sensor gives the table lookup of its stored code, and a raw sensor gives the stored value of its key, or none when the key is missing |
| Sensors.NativeValueShowsCode | custom_components/renogy_ha/sensor.py:124-129 | a status entity with a stored integer code shows that code's table text, or "unknown" for a code outside the table |
| Sensors.NativeValueReadsOwnKey | custom_components/renogy_ha/sensor.py:472-475 | an entity's value depends only on its own key |
| Sensors.SensorAvailable | custom_components/renogy_ha/sensor.py:503-511 | available exactly when the coordinator is available and the device is available with fewer than 3 failures |
| Sensors.SensorStaysUnavailable | custom_components/renogy_ha/sensor.py:503-511 | an entity whose device went unavailable stays unavailable through any number of reads |

## Left out

- BLE transport and timing: `establish_connection`, GATT reads, writes and notifications, the notification event and `MAX_NOTIFICATION_WAIT_TIME`. Their outcomes are inputs of the session fold.
- Concurrency: the connection lock, task cancellation, and the legacy `start_polling`, `stop_polling` and `_polling_loop`. `_connection_in_progress` is modelled only as a flag read by `_needs_poll` and `_async_poll`.
- The `renogy_ble` decoder is an external library. It is an uninterpreted function parameter.
- Home Assistant scheduling is left out: `_schedule_refresh`, `_handle_refresh_interval` (which only awaits `async_request_refresh`, modelled as `RequestRefresh`), `async_start` and `async_stop`.
- Home Assistant callbacks without logic of their own are left out:
  - `_async_handle_bluetooth_event`, which only refreshes the RSSI and last-seen time;
  - `async_update_listeners`, whose calls appear as the notify flags of `Poll` and `RequestRefresh`; `HandleUnavailable` has no flag because it notifies the listeners unconditionally;
  - `setup_discovered_devices`, `_handle_coordinator_update` and the `device_info` of a sensor;
  - both `__init__.py` and both `config_flow.py`.
- Floats and timestamps: datetimes become integer seconds. Logging is dropped.
- Sensors.NativeValue: does not model the float conversion and the [-1000, 10000] range check for voltage, current, temperature and power sensors (`sensor.py:477-496`), because they need floating point. Its contract covers the empty-telemetry guard and the value each description reads.
- PollSession.RequestRefresh: a poll that raises is modelled only as an exception after the device was prepared, such as `establish_connection` raising something other than `BleakError` or a timeout. A listener raising inside `_async_poll` after a notifying session is `ListenerRaised`. An exception while the device is being created or refreshed is not modelled.
- LegacyClient.ReadDeviceData: a disconnect that raises is modelled by a `false` result; the exception itself, which reaches `_polling_loop`, is not.
- PollSession.Session: requires one transport outcome per command of the table (`ExchangeFits`). This is how the fold lines outcomes up with commands, not a demand of the source.
- LegacyClient.ScanForDevices: returns the matching devices by address. The Python list holds the registry's own objects, so the address identifies them.
- Sensors.DeviceDiscovered: identifies the device in the `devices` list by address, for the same reason.

=== FILE: bytes.dfy ===
/** Bytes as the Python code builds and reads them: a byte from an integer
    by masking, and a 16-bit field as two big-endian bytes. */
module Bytes {
  predicate IsByte(x: int) { 0 <= x < 256 }

  /** The byte whose value is `v`, assembled from its bits, least
      significant last: a second construction of the same byte, used to
      pin down the value of the cast. */
  function BitsOf(v: int): bv8
    requires 0 <= v < 256
    decreases v
  {
    if v == 0 then 0 else (BitsOf(v / 2) << 1) | (if v % 2 == 1 then 1 else 0)
  }

  /** Python's `x & 0xFF` on an int of any sign (Dafny's `%` by a positive
      divisor is never negative, like the mask). */
  function ByteOf(x: int): bv8 { (x % 256) as bv8 }

  /** Big-endian reading of two bytes. */
  function Word(hi: bv8, lo: bv8): int { (hi as int) * 256 + (lo as int) }

  /** Shifting a bit in below a byte under 128 doubles its value and adds
      the bit. */
  lemma ShiftInBit(b: bv8, c: bv8)
    requires b as int < 128 && (c == 0 || c == 1)
    ensures ((b << 1) | c) as int == 2 * (b as int) + c as int
  {
  }

  lemma {:induction false} BitsOfValue(v: int)
    requires 0 <= v < 256
    ensures BitsOf(v) as int == v
    decreases v
  {
    if v > 0 {
      BitsOfValue(v / 2);
      ShiftInBit(BitsOf(v / 2), if v % 2 == 1 then 1 else 0);
    }
  }

  /** A byte read as an integer and cast back is the same byte. */
  lemma CastOfValue(b: bv8, m: int)
    requires b as int == m
    ensures m as bv8 == b
  {
  }

  /** The masked byte has the masked value; proved through the byte
      assembled bit by bit, which has the same value and so is the same byte. */
  lemma ByteOfValue(x: int)
    ensures ByteOf(x) as int == x % 256
  {
    var m := x % 256;
    BitsOfValue(m);
    CastOfValue(BitsOf(m), m);
  }

  lemma SmallByteOfValue(x: int)
    requires IsByte(x)
    ensures ByteOf(x) as int == x
  {
    ByteOfValue(x);
    ReducedIsSelf(ByteOf(x) as int, x, 256);
  }

  lemma BaseDigits(x: int)
    ensures ((x / 256) % 256) * 256 + x % 256 == x % 65536
  {
    var q := x / 256;
    var r := x % 256;
    var q1 := q / 256;
    var q0 := q % 256;
    assert x == q * 256 + r;
    assert q == q1 * 256 + q0;
    assert x == q1 * 65536 + (q0 * 256 + r);
    assert 0 <= q0 * 256 + r < 65536;
  }

  /** The two header bytes of a 16-bit field read back, big-endian, as the
      field modulo 65536. */
  lemma BigEndianRoundTrip(x: int)
    ensures Word(ByteOf(x / 256), ByteOf(x)) == x % 65536
  {
    ByteOfValue(x / 256);
    ByteOfValue(x);
    BaseDigits(x);
  }

  /** An in-range field reads back as itself. */
  lemma BigEndianInRange(x: int)
    requires 0 <= x < 65536
    ensures Word(ByteOf(x / 256), ByteOf(x)) == x
  {
    BigEndianRoundTrip(x);
    ReducedIsSelf(Word(ByteOf(x / 256), ByteOf(x)), x, 65536);
  }

  /** A value already below the modulus is its own remainder (kept apart
      from the casts so the solver meets the bound without them). */
  lemma ReducedIsSelf(w: int, x: int, n: int)
    requires 0 <= x < n && w == x % n
    ensures w == x
  {
  }
}

=== FILE: common.dfy ===
/** Types shared by every part of the Renogy BLE model. */
module Common {

  /** Python's `Optional[T]`: a value or `None`. */
  datatype Option<+T> = None | Some(value: T)

  /** A telemetry value as the external decoder produces it: an integer
      register reading, a scaled reading, or a text field such as a model name. */
  datatype Value = Int(i: int) | Real(r: real) | Text(s: string)

  /** The `parsed_data` dictionary: telemetry key to value. */
  type Telemetry = map<string, Value>

  /** What one call of the external `RenogyParser.parse` gives back: a field
      map (possibly empty, which also stands for a `None` result), or an
      exception that the caller catches. */
  datatype Decoded = Parsed(fields: Telemetry) | Raised

  /** Python's `dict.update`: keys of `update` win, every other key of
      `base` is kept. */
  function Merge(base: Telemetry, update: Telemetry): (r: Telemetry)
    ensures r.Keys == base.Keys + update.Keys
    ensures forall k :: k in update ==> r[k] == update[k]
    ensures forall k :: k in base && k !in update ==> r[k] == base[k]
  {
    base + update
  }

  /** No element occurs twice. */
  predicate NoDuplicates<T(==)>(s: seq<T>) {
    forall i, j :: 0 <= i < j < |s| ==> s[i] != s[j]
  }
}

=== FILE: constants.dfy ===
/** Configuration constants of the newer integration (`renogy/const.py`). */
module Constants {
  import opened Common
  import Bytes

  /** Scan interval bounds and default, in seconds. */
  const DefaultScanInterval: int := 60
  const MinScanInterval: int := 10
  const MaxScanInterval: int := 600

  /** Advertised-name prefix of Renogy BT-1 / BT-2 modules. */
  const RenogyPrefix: string := "BT-TH-"

  /** Minutes an unavailable device waits between reconnection attempts,
      and the same span in seconds, the unit of the model's clock. */
  const UnavailableRetryMinutes: int := 10
  const RetryIntervalSeconds: int := UnavailableRetryMinutes * 60

  /** Modbus unit id every request is addressed to. */
  const DefaultDeviceId: int := 0xFF

  /** The values of the `DeviceType` enum. */
  const Controller: string := "controller"
  const Battery: string := "battery"
  const Inverter: string := "inverter"
  const DeviceTypes: seq<string> := [Controller, Battery, Inverter]
  const DefaultDeviceType: string := Controller
  const SupportedDeviceTypes: seq<string> := [Controller]

  /** One entry of the `COMMANDS` table: a named Read Holding Registers
      request (function code, start register, register count). */
  datatype Command = Command(name: string, functionCode: int, register: int, wordCount: int)

  /** `COMMANDS["controller"]`, in dictionary insertion order. */
  const ControllerCommands: seq<Command> := [
    Command("device_info", 3, 12, 8),
    Command("device_id", 3, 26, 1),
    Command("battery", 3, 57348, 1),
    Command("pv", 3, 256, 34)
  ]

  /** The device types that have a command table (the keys of `COMMANDS`). */
  const CommandTableTypes: set<string> := {Controller}

  /** A command whose request frame can be built and whose fields fit the
      16-bit header slots without truncation. */
  predicate WellFormedCommand(c: Command) {
    Bytes.IsByte(c.functionCode)
    && 0 <= c.register < 65536
    && 0 <= c.wordCount < 65536
  }

  /** `COMMANDS[deviceType]`: `None` is the `KeyError` raised for a type
      without a table. */
  function Commands(deviceType: string): (r: Option<seq<Command>>)
    ensures r.Some? <==> deviceType in CommandTableTypes
    ensures r.Some? ==> forall c <- r.value :: WellFormedCommand(c)
  {
    if deviceType == Controller then Some(ControllerCommands) else None
  }

  /** The controller table: four Read Holding Registers commands (function
      code 3) with distinct names, in the order `device_info`, `device_id`,
      `battery`, `pv`. */
  lemma ControllerTable()
    ensures Commands(Controller).Some?
    ensures var t := Commands(Controller).value;
      && |t| == 4
      && (forall c <- t :: c.functionCode == 3)
      && (forall i, j :: 0 <= i < j < |t| ==> t[i].name != t[j].name)
      && t[0].name == "device_info" && t[1].name == "device_id"
      && t[2].name == "battery" && t[3].name == "pv"
  {
  }

  /** The static configuration is consistent: the default type has a
      command table, every supported type has one and every type with a
      table is a declared type, and the scan-interval default lies within
      its bounds. `battery` and `inverter` are declared but have no table. */
  lemma ConfigurationConsistent()
    ensures Commands(DefaultDeviceType).Some?
    ensures forall t <- SupportedDeviceTypes :: t in CommandTableTypes
    ensures forall t <- CommandTableTypes :: t in DeviceTypes
    ensures Commands(Battery).None? && Commands(Inverter).None?
    ensures MinScanInterval <= DefaultScanInterval <= MaxScanInterval
    ensures RetryIntervalSeconds > 0
    ensures Bytes.IsByte(DefaultDeviceId)
  {
  }
}

=== FILE: device_state.dfy ===
/** `RenogyBLEDevice` of the newer integration (`renogy/ble.py`): per-device
    availability with a failure counter, the rate-limited reconnection gate,
    and the validating merge of decoded telemetry. The wall clock is an
    integer parameter counting seconds. */
module DeviceState {
  import opened Common
  import opened Constants
  import FrameCodec

  /** Consecutive failures after which the device is marked unavailable. */
  const MaxFailures: nat := 3

  /** Name given to a device that advertises none. */
  const UnknownName: string := "Unknown Renogy Device"

  datatype Device = Device(
    address: string,
    name: string,
    rssi: Option<int>,
    lastSeen: int,
    deviceType: string,
    failureCount: nat,
    available: bool,
    lastUnavailableTime: Option<int>,
    parsedData: Telemetry)

  /** The external decoder, `RenogyParser.parse(raw, device_type, register)`. */
  type Decoder = (seq<bv8>, string, int) -> Decoded

  /** `ble_device.name or "Unknown Renogy Device"`: `None` and the empty
      string are both falsy. */
  function DisplayName(advertised: Option<string>): (n: string)
    ensures n != ""
    ensures advertised.Some? && advertised.value != "" ==> n == advertised.value
    ensures !(advertised.Some? && advertised.value != "") ==> n == UnknownName
  {
    if advertised.Some? && advertised.value != "" then advertised.value else UnknownName
  }

  /** The constructor: no failures, available, nothing parsed, no stamp. */
  function NewDevice(address: string, advertisedName: Option<string>, rssi: Option<int>,
                     deviceType: string, now: int): (d: Device)
    ensures IsAvailable(d) && Consistent(d)
    ensures d.parsedData == map[] && d.address == address && d.deviceType == deviceType
    ensures d.name == DisplayName(advertisedName) && d.rssi == rssi && d.lastSeen == now
  {
    Device(address, DisplayName(advertisedName), rssi, now, deviceType, 0, true, None, map[])
  }

  /** `is_available`. */
  predicate IsAvailable(d: Device) {
    d.available && d.failureCount < MaxFailures
  }

  /** What every device reached through the class's own methods satisfies:
      the flag agrees with the counter, and the unavailability stamp is set
      exactly while the device is unavailable. */
  predicate Consistent(d: Device) {
    && (d.available <==> d.failureCount < MaxFailures)
    && (d.available <==> d.lastUnavailableTime.None?)
  }

  /** Everything but the availability bookkeeping is left alone. */
  predicate SameExceptAvailability(d: Device, d': Device) {
    d' == d.(failureCount := d'.failureCount, available := d'.available,
             lastUnavailableTime := d'.lastUnavailableTime)
  }

  /** `update_availability(success)` at clock `now`. */
  function UpdateAvailability(d: Device, success: bool, now: int): (d': Device)
    ensures SameExceptAvailability(d, d')
    ensures success ==> d'.failureCount == 0 && IsAvailable(d')
    ensures !success ==> d'.failureCount == d.failureCount + 1
    ensures !success ==> (d'.available <==> d.available && d'.failureCount < MaxFailures)
    // the stamp is written only when the flag flips, in either direction
    ensures d'.lastUnavailableTime != d.lastUnavailableTime ==> d'.available != d.available
    ensures d.available && !d'.available ==> d'.lastUnavailableTime == Some(now)
    ensures !d.available && d'.available ==> d'.lastUnavailableTime == None
    ensures Consistent(d) ==> Consistent(d')
  {
    if success then
      if !d.available then d.(failureCount := 0, available := true, lastUnavailableTime := None)
      else d.(failureCount := 0)
    else
      var count := d.failureCount + 1;
      if count >= MaxFailures && d.available then
        d.(failureCount := count, available := false, lastUnavailableTime := Some(now))
      else
        d.(failureCount := count)
  }

  /** `should_retry_connection` at clock `now`: the answer and the device
      with its possibly updated stamp. */
  function ShouldRetryConnection(d: Device, now: int): (r: (bool, Device))
    ensures r.1 == d.(lastUnavailableTime := r.1.lastUnavailableTime)
    ensures IsAvailable(d) ==> r.0 && r.1 == d
    ensures r.0 && !IsAvailable(d) ==>
      d.lastUnavailableTime.Some? && now >= d.lastUnavailableTime.value + RetryIntervalSeconds
      && r.1.lastUnavailableTime == Some(now)
    ensures !r.0 ==> !IsAvailable(d) && r.1.lastUnavailableTime.Some?
    ensures !r.0 && d.lastUnavailableTime.Some? ==> r.1 == d
    ensures !IsAvailable(d) && d.lastUnavailableTime.None? ==> !r.0 && r.1.lastUnavailableTime == Some(now)
    ensures (!IsAvailable(d) && d.lastUnavailableTime.Some?
             && now >= d.lastUnavailableTime.value + RetryIntervalSeconds) ==> r.0
  {
    if IsAvailable(d) then (true, d)
    else if d.lastUnavailableTime.None? then (false, d.(lastUnavailableTime := Some(now)))
    else if now >= d.lastUnavailableTime.value + RetryIntervalSeconds then
      (true, d.(lastUnavailableTime := Some(now)))
    else (false, d)
  }

  /** The shape checks made before the decoder is consulted: at least five
      bytes (id, function code, byte count, two CRC bytes) and the exception
      bit 0x80 clear in the function-code byte (section 7 of the MODBUS
      Application Protocol Specification V1.1b3). The CRC is not checked. */
  predicate ShapeOk(raw: seq<bv8>) {
    |raw| >= 5 && raw[1] & 0x80 == 0
  }

  /** Whether `update_parsed_data` accepts a response: it is well shaped, the
      parser library is installed, and the decoder returns a non-empty map. */
  predicate Accepts(parserAvailable: bool, decode: Decoder, deviceType: string,
                    raw: seq<bv8>, register: int) {
    && |raw| > 0
    && parserAvailable
    && ShapeOk(raw)
    && decode(raw, deviceType, register).Parsed?
    && |decode(raw, deviceType, register).fields| > 0
  }

  /** `update_parsed_data(raw, register)`: the device afterwards and the
      returned flag. */
  function UpdateParsedData(d: Device, raw: seq<bv8>, register: int,
                            parserAvailable: bool, decode: Decoder): (r: (Device, bool))
    ensures r.1 <==> Accepts(parserAvailable, decode, d.deviceType, raw, register)
    ensures !r.1 ==> r.0 == d
    ensures r.1 ==> r.0 == d.(parsedData := Merge(d.parsedData, decode(raw, d.deviceType, register).fields))
  {
    if |raw| == 0 then (d, false)
    else if !parserAvailable then (d, false)
    else if |raw| < 5 then (d, false)
    else if raw[1] & 0x80 != 0 then (d, false)
    else
      match decode(raw, d.deviceType, register)
      case Raised => (d, false)
      case Parsed(fields) =>
        if |fields| == 0 then (d, false)
        else (d.(parsedData := Merge(d.parsedData, fields)), true)
  }

  // ---------------------------------------------------------------------
  // Properties over several calls

  /** Replays a sequence of `update_availability` outcomes, the `i`-th at
      clock `times[i]`. */
  function ReplayAvailability(d: Device, outcomes: seq<bool>, times: seq<int>): Device
    requires |outcomes| == |times|
    decreases |outcomes|
  {
    if |outcomes| == 0 then d
    else ReplayAvailability(UpdateAvailability(d, outcomes[0], times[0]), outcomes[1..], times[1..])
  }

  /** From construction, any history of outcomes keeps the device
      consistent, so `available` alone decides `is_available`. */
  lemma {:induction false} ReplayKeepsConsistent(d: Device, outcomes: seq<bool>, times: seq<int>)
    requires |outcomes| == |times|
    requires Consistent(d)
    ensures Consistent(ReplayAvailability(d, outcomes, times))
    ensures IsAvailable(ReplayAvailability(d, outcomes, times))
            == ReplayAvailability(d, outcomes, times).available
    decreases |outcomes|
  {
    if |outcomes| > 0 {
      ReplayKeepsConsistent(UpdateAvailability(d, outcomes[0], times[0]), outcomes[1..], times[1..]);
    }
  }

  /** Hysteresis: starting from a device with no recorded failures, `k`
      consecutive failures leave it available exactly when `k < 3`; the
      stamp is the clock of the third failure and later failures keep it. */
  lemma {:induction false} FailureRun(d: Device, times: seq<int>)
    requires d.failureCount == 0 && d.available
    ensures var d' := ReplayAvailability(d, seq(|times|, _ => false), times);
      && d'.failureCount == |times|
      && (d'.available <==> |times| < MaxFailures)
      && (|times| >= MaxFailures ==> d'.lastUnavailableTime == Some(times[MaxFailures - 1]))
      && (|times| < MaxFailures ==> d'.lastUnavailableTime == d.lastUnavailableTime)
    decreases |times|
  {
    var n := |times|;
    if n > 0 {
      var prefix := times[..n - 1];
      FailureRun(d, prefix);
      ReplaySnoc(d, seq(n - 1, _ => false), prefix, false, times[n - 1]);
      assert seq(n - 1, _ => false) + [false] == seq(n, _ => false);
      assert prefix + [times[n - 1]] == times;
    }
  }

  lemma {:induction false} ReplaySnoc(d: Device, outcomes: seq<bool>, times: seq<int>, o: bool, t: int)
    requires |outcomes| == |times|
    ensures ReplayAvailability(d, outcomes + [o], times + [t])
         == UpdateAvailability(ReplayAvailability(d, outcomes, times), o, t)
    decreases |outcomes|
  {
    if |outcomes| > 0 {
      assert (outcomes + [o])[1..] == outcomes[1..] + [o];
      assert (times + [t])[1..] == times[1..] + [t];
      ReplaySnoc(UpdateAvailability(d, outcomes[0], times[0]), outcomes[1..], times[1..], o, t);
    }
  }

  /** One success after any number of failures restores the device. */
  lemma RecoveryAfterSuccess(d: Device, now: int)
    requires !IsAvailable(d)
    ensures IsAvailable(UpdateAvailability(d, true, now))
    ensures UpdateAvailability(d, true, now).failureCount == 0
    ensures !d.available ==> UpdateAvailability(d, true, now).lastUnavailableTime == None
  {
  }

  /** On a device reached through the class's methods, the branch of
      `should_retry_connection` that finds no stamp on an unavailable device
      never runs: the stamp is written on the same call that clears the flag. */
  lemma NoStampBranchUnreachable(d: Device, now: int)
    requires Consistent(d) && !IsAvailable(d)
    ensures d.lastUnavailableTime.Some?
    ensures var r := ShouldRetryConnection(d, now);
      r.0 <==> now >= d.lastUnavailableTime.value + RetryIntervalSeconds
  {
  }

  /** What happens to an unavailable device between polls: a query of the
      retry gate, or a failed attempt reported to `update_availability`. */
  datatype GateEvent = Query(now: int) | Failure(at: int)

  /** Replays gate events and lists the clocks at which the gate opened. */
  function ReplayGate(d: Device, events: seq<GateEvent>): (r: (Device, seq<int>))
    decreases |events|
  {
    if |events| == 0 then (d, [])
    else
      match events[0]
      case Query(now) =>
        var (ok, d1) := ShouldRetryConnection(d, now);
        var (d2, rest) := ReplayGate(d1, events[1..]);
        (d2, if ok then [now] + rest else rest)
      case Failure(at) =>
        ReplayGate(UpdateAvailability(d, false, at), events[1..])
  }

  /** Rate limit: while a device stays unavailable, consecutive openings of
      the retry gate are at least `UNAVAILABLE_RETRY_INTERVAL` apart, and the
      first comes at least that long after any stamp already recorded. */
  lemma {:induction false} RetryRateLimited(d: Device, events: seq<GateEvent>)
    requires !d.available
    ensures var grants := ReplayGate(d, events).1;
      && (forall i :: 0 <= i < |grants| - 1 ==> grants[i] + RetryIntervalSeconds <= grants[i + 1])
      && (d.lastUnavailableTime.Some? ==>
            forall i :: 0 <= i < |grants| ==> d.lastUnavailableTime.value + RetryIntervalSeconds <= grants[i])
      && !ReplayGate(d, events).0.available
    decreases |events|
  {
    if |events| > 0 {
      match events[0]
      case Query(now) =>
        var (ok, d1) := ShouldRetryConnection(d, now);
        RetryRateLimited(d1, events[1..]);
      case Failure(at) =>
        RetryRateLimited(UpdateAvailability(d, false, at), events[1..]);
    }
  }

  /** A rejected shape never reaches the decoder: the outcome is the same
      whatever the decoder would have said. */
  lemma RejectedShapeIgnoresDecoder(d: Device, raw: seq<bv8>, register: int,
                                    parserAvailable: bool, decode1: Decoder, decode2: Decoder)
    requires !ShapeOk(raw)
    ensures UpdateParsedData(d, raw, register, parserAvailable, decode1)
         == UpdateParsedData(d, raw, register, parserAvailable, decode2)
    ensures !UpdateParsedData(d, raw, register, parserAvailable, decode1).1
  {
  }

  /** A merge adds the new keys and keeps the old ones: nothing is lost. */
  lemma MergeKeepsKeys(d: Device, raw: seq<bv8>, register: int, parserAvailable: bool, decode: Decoder)
    ensures d.parsedData.Keys <= UpdateParsedData(d, raw, register, parserAvailable, decode).0.parsedData.Keys
  {
  }

  /** The response CRC is never checked: corrupting the last byte of an
      accepted response leaves its shape intact, so whenever the decoder
      still returns fields it is accepted too, although at most one of the
      two frames has a valid CRC. */
  lemma CrcNotChecked(d: Device, raw: seq<bv8>, register: int, decode: Decoder)
    requires ShapeOk(raw)
    ensures var bad := raw[..|raw| - 1] + [raw[|raw| - 1] ^ 1];
      && ShapeOk(bad)
      && !(FrameCodec.CrcValid(raw) && FrameCodec.CrcValid(bad))
      && (decode(bad, d.deviceType, register).Parsed? && |decode(bad, d.deviceType, register).fields| > 0
          ==> UpdateParsedData(d, bad, register, true, decode).1)
  {
    var n := |raw|;
    var bad := raw[..n - 1] + [raw[n - 1] ^ 1];
    assert bad[1] == raw[1];
    FrameCodec.FlippedTrailerInvalid(raw);
  }
}

=== FILE: frame_codec.dfy ===
/** The Modbus RTU framing used on the wire: the CRC-16 of section 6.2.2 of
    the MODBUS over Serial Line Specification V1.02, and the Read Holding
    Registers request of section 6.3 of the MODBUS Application Protocol
    Specification V1.1b3. */
module FrameCodec {
  import opened Common
  import opened Bytes

  /** The reflected form of the generator polynomial 0x8005. */
  const Polynomial: bv16 := 0xA001
  /** The CRC register is preset to all ones; there is no final XOR. */
  const InitialCrc: bv16 := 0xFFFF

  /** One bit step of the LSB-first shift register. */
  function ShiftBit(crc: bv16): bv16 {
    if crc & 1 == 1 then (crc >> 1) ^ Polynomial else crc >> 1
  }

  /** `n` bit steps. */
  function ShiftBits(crc: bv16, n: nat): bv16
    decreases n
  {
    if n == 0 then crc else ShiftBits(ShiftBit(crc), n - 1)
  }

  /** Folds one data byte into the register: XOR into the low byte, then
      eight bit steps. */
  function AbsorbByte(crc: bv16, b: bv8): bv16 {
    ShiftBits(crc ^ (b as bv16), 8)
  }

  /** The register after absorbing `data` in order, starting from `crc`. */
  function Update(crc: bv16, data: seq<bv8>): bv16
    decreases |data|
  {
    if |data| == 0 then crc
    else AbsorbByte(Update(crc, data[..|data| - 1]), data[|data| - 1])
  }

  /** CRC-16/MODBUS of `data`. */
  function Crc16(data: seq<bv8>): bv16 {
    Update(InitialCrc, data)
  }

  function LowByte(w: bv16): bv8 { (w & 0xFF) as bv8 }
  function HighByte(w: bv16): bv8 { (w >> 8) as bv8 }

  /** `modbus_crc`: the bitwise CRC loop, returning (low byte, high byte).
      The Python register is an unbounded int, but it never leaves 16 bits
      (it starts at 0xFFFF, XORs in values below 256 and 0xA001, and only
      shifts right), so a `bv16` register is exact. */
  method ModbusCrc(data: seq<bv8>) returns (lo: bv8, hi: bv8)
    ensures lo == LowByte(Crc16(data)) && hi == HighByte(Crc16(data))
  {
    var crc: bv16 := InitialCrc;
    for i := 0 to |data|
      invariant crc == Update(InitialCrc, data[..i])
    {
      assert data[..i + 1][..i] == data[..i];
      var start := crc ^ (data[i] as bv16);
      crc := start;
      for j := 0 to 8
        invariant crc == ShiftBits(start, j)
      {
        ShiftBitsStep(start, j);
        if crc & 1 == 1 {
          crc := (crc >> 1) ^ Polynomial;
        } else {
          crc := crc >> 1;
        }
      }
    }
    assert data[..|data|] == data;
    lo := LowByte(crc);
    hi := HighByte(crc);
  }

  lemma {:induction false} ShiftBitsStep(crc: bv16, n: nat)
    ensures ShiftBits(crc, n + 1) == ShiftBit(ShiftBits(crc, n))
    decreases n
  {
    if n > 0 {
      ShiftBitsStep(ShiftBit(crc), n - 1);
    }
  }

  /** The eight bit steps of one byte, written out. */
  lemma EightSteps(crc: bv16)
    ensures ShiftBits(crc, 8)
         == ShiftBit(ShiftBit(ShiftBit(ShiftBit(ShiftBit(ShiftBit(ShiftBit(ShiftBit(crc))))))))
  {
  }

  /** Absorbing one more byte extends the fold. */
  lemma UpdateSnoc(crc: bv16, data: seq<bv8>, b: bv8)
    ensures Update(crc, data + [b]) == AbsorbByte(Update(crc, data), b)
  {
    assert (data + [b])[..|data|] == data;
  }

  /** One concrete step of a CRC computation over a literal byte string. */
  lemma PrefixStep(prefix: seq<bv8>, b: bv8, before: bv16, after: bv16)
    requires Crc16(prefix) == before
    requires ShiftBit(ShiftBit(ShiftBit(ShiftBit(ShiftBit(ShiftBit(ShiftBit(ShiftBit(
               before ^ (b as bv16))))))))) == after
    ensures Crc16(prefix + [b]) == after
  {
    EightSteps(before ^ (b as bv16));
    UpdateSnoc(InitialCrc, prefix, b);
  }

  /** The published check value of CRC-16/MODBUS: the ASCII string
      "123456789" has CRC 0x4B37. Pins the model to the standard algorithm. */
  lemma CheckValue()
    ensures Crc16([0x31, 0x32, 0x33, 0x34, 0x35, 0x36, 0x37, 0x38, 0x39]) == 0x4B37
  {
    var p: seq<bv8> := [];
    PrefixStep(p, 0x31, InitialCrc, 0x947E);
    p := p + [0x31];
    PrefixStep(p, 0x32, 0x947E, 0xF595);
    p := p + [0x32];
    PrefixStep(p, 0x33, 0xF595, 0x7A75);
    p := p + [0x33];
    PrefixStep(p, 0x34, 0x7A75, 0x30BA);
    p := p + [0x34];
    PrefixStep(p, 0x35, 0x30BA, 0xA471);
    p := p + [0x35];
    PrefixStep(p, 0x36, 0xA471, 0x32E4);
    p := p + [0x36];
    PrefixStep(p, 0x37, 0x32E4, 0x9D73);
    p := p + [0x37];
    PrefixStep(p, 0x38, 0x9D73, 0x37DD);
    p := p + [0x38];
    PrefixStep(p, 0x39, 0x37DD, 0x4B37);
    p := p + [0x39];
    assert p == [0x31, 0x32, 0x33, 0x34, 0x35, 0x36, 0x37, 0x38, 0x39];
  }

  /** After eight bit steps the high byte is clear exactly when the low byte
      was: the bytes of the CRC table are distinct in their high halves. */
  lemma HighByteClears(z: bv16)
    ensures ShiftBits(z, 8) >> 8 == 0 <==> z & 0xFF == 0
  {
    EightSteps(z);
  }

  /** With a clear low byte, eight bit steps are a plain shift. */
  lemma ClearLowByteShifts(z: bv16)
    requires z & 0xFF == 0
    ensures ShiftBits(z, 8) == z >> 8
  {
    EightSteps(z);
  }

  /** Absorbing a byte reaches zero exactly from the register holding that
      byte and nothing else. */
  lemma AbsorbToZero(crc: bv16, b: bv8)
    ensures AbsorbByte(crc, b) == 0 <==> crc == b as bv16
  {
    HighByteClears(crc ^ (b as bv16));
    if AbsorbByte(crc, b) == 0 {
      ClearLowByteShifts(crc ^ (b as bv16));
    }
  }

  lemma ResidueBits(crc: bv16, a: bv8, b: bv8, z: bv16, w: bv16)
    requires z == crc ^ (a as bv16)
    requires w >> 8 == 0 <==> z & 0xFF == 0
    requires z & 0xFF == 0 ==> w == z >> 8
    ensures w == b as bv16 <==> a == LowByte(crc) && b == HighByte(crc)
  {
  }

  /** The two bytes that follow a register state drive it to zero, and no
      other pair does: appending the CRC low byte first is what makes a
      frame check to zero. */
  lemma ResidueZero(crc: bv16, a: bv8, b: bv8)
    ensures AbsorbByte(AbsorbByte(crc, a), b) == 0 <==> a == LowByte(crc) && b == HighByte(crc)
  {
    var z := crc ^ (a as bv16);
    AbsorbToZero(AbsorbByte(crc, a), b);
    HighByteClears(z);
    if z & 0xFF == 0 {
      ClearLowByteShifts(z);
    }
    ResidueBits(crc, a, b, z, AbsorbByte(crc, a));
  }

  /** A received frame whose last two bytes are the CRC of the rest, low byte
      first. */
  predicate CrcValid(frame: seq<bv8>) {
    |frame| >= 2
    && frame[|frame| - 2] == LowByte(Crc16(frame[..|frame| - 2]))
    && frame[|frame| - 1] == HighByte(Crc16(frame[..|frame| - 2]))
  }

  /** Checking the trailer is the same as running the CRC over the whole
      frame and getting zero. */
  lemma CrcValidIffResidueZero(frame: seq<bv8>)
    requires |frame| >= 2
    ensures CrcValid(frame) <==> Crc16(frame) == 0
  {
    var n := |frame|;
    var body := frame[..n - 2];
    assert frame == body + [frame[n - 2]] + [frame[n - 1]];
    UpdateSnoc(InitialCrc, body, frame[n - 2]);
    UpdateSnoc(InitialCrc, body + [frame[n - 2]], frame[n - 1]);
    ResidueZero(Crc16(body), frame[n - 2], frame[n - 1]);
  }

  /** Appending the CRC of any data, low byte first, yields a valid frame. */
  lemma AppendCrcIsValid(data: seq<bv8>)
    ensures CrcValid(data + [LowByte(Crc16(data)), HighByte(Crc16(data))])
    ensures Crc16(data + [LowByte(Crc16(data)), HighByte(Crc16(data))]) == 0
  {
    var frame := data + [LowByte(Crc16(data)), HighByte(Crc16(data))];
    assert frame[..|frame| - 2] == data;
    CrcValidIffResidueZero(frame);
  }

  /** Flipping a bit of the last byte breaks a valid trailer: the body is
      unchanged, so its CRC is too. */
  lemma FlippedTrailerInvalid(frame: seq<bv8>)
    requires |frame| >= 2
    ensures var bad := frame[..|frame| - 1] + [frame[|frame| - 1] ^ 1];
      !(CrcValid(frame) && CrcValid(bad))
  {
    var n := |frame|;
    var bad := frame[..n - 1] + [frame[n - 1] ^ 1];
    assert bad[..n - 2] == frame[..n - 2];
    assert bad[n - 1] != frame[n - 1];
  }

  // ---------------------------------------------------------------------
  // Read Holding Registers request

  /** The six header bytes: `(register >> 8) & 0xFF` is `ByteOf(register / 256)`
      because Python's `>>` floors, as does Dafny's `/` by a positive divisor. */
  function Header(deviceId: int, functionCode: int, register: int, wordCount: int): (h: seq<bv8>)
    requires IsByte(deviceId) && IsByte(functionCode)
    ensures |h| == 6
  {
    [ByteOf(deviceId), ByteOf(functionCode),
     ByteOf(register / 256), ByteOf(register),
     ByteOf(wordCount / 256), ByteOf(wordCount)]
  }

  /** `create_modbus_read_request`. `bytearray` raises `ValueError` for a device
      id or function code outside 0..255 (`None` here); register and word
      count are masked, so any integer is accepted and taken modulo 65536. */
  function ReadRequest(deviceId: int, functionCode: int, register: int, wordCount: int): (r: Option<seq<bv8>>)
    ensures r.Some? <==> IsByte(deviceId) && IsByte(functionCode)
    ensures r.Some? ==> |r.value| == 8
  {
    if IsByte(deviceId) && IsByte(functionCode) then
      var header := Header(deviceId, functionCode, register, wordCount);
      var crc := Crc16(header);
      Some(header + [LowByte(crc), HighByte(crc)])
    else
      None
  }

  /** Frame layout: `[id, fc, regHi, regLo, cntHi, cntLo, crcLo, crcHi]`,
      where the fields decode back to the arguments and the CRC trailer is
      low byte first. */
  lemma ReadRequestLayout(deviceId: int, functionCode: int, register: int, wordCount: int)
    requires IsByte(deviceId) && IsByte(functionCode)
    ensures ReadRequest(deviceId, functionCode, register, wordCount).Some?
    ensures var f := ReadRequest(deviceId, functionCode, register, wordCount).value;
      && |f| == 8
      && f[0] as int == deviceId
      && f[1] as int == functionCode
      && Word(f[2], f[3]) == register % 65536
      && Word(f[4], f[5]) == wordCount % 65536
      && (0 <= register < 65536 ==> Word(f[2], f[3]) == register)
      && (0 <= wordCount < 65536 ==> Word(f[4], f[5]) == wordCount)
      && f[6] == LowByte(Crc16(f[..6]))
      && f[7] == HighByte(Crc16(f[..6]))
  {
    var f := ReadRequest(deviceId, functionCode, register, wordCount).value;
    assert f[..6] == Header(deviceId, functionCode, register, wordCount);
    SmallByteOfValue(deviceId);
    SmallByteOfValue(functionCode);
    BigEndianRoundTrip(register);
    BigEndianRoundTrip(wordCount);
    if 0 <= register < 65536 {
      BigEndianInRange(register);
    }
    if 0 <= wordCount < 65536 {
      BigEndianInRange(wordCount);
    }
  }

  /** Every request frame checks: its CRC trailer is valid and running the
      CRC over all eight bytes gives zero, i.e. `modbus_crc` yields (0, 0). */
  lemma ReadRequestChecks(deviceId: int, functionCode: int, register: int, wordCount: int)
    requires IsByte(deviceId) && IsByte(functionCode)
    ensures var f := ReadRequest(deviceId, functionCode, register, wordCount).value;
      CrcValid(f) && Crc16(f) == 0
      && LowByte(Crc16(f)) == 0 && HighByte(Crc16(f)) == 0
  {
    AppendCrcIsValid(Header(deviceId, functionCode, register, wordCount));
  }

  /** The request for the controller's PV block, `COMMANDS["controller"]["pv"]`
      sent to the default unit id 0xFF: `FF 03 01 00 00 22 D1 F1`. */
  lemma PvRequestBytes()
    ensures ReadRequest(0xFF, 3, 256, 34) == Some([0xFF, 0x03, 0x01, 0x00, 0x00, 0x22, 0xD1, 0xF1])
  {
    var h := Header(0xFF, 3, 256, 34);
    assert h == [0xFF, 0x03, 0x01, 0x00, 0x00, 0x22];
    PvHeaderCrc();
    assert LowByte(Crc16(h)) == 0xD1 && HighByte(Crc16(h)) == 0xF1;
    assert h + [0xD1, 0xF1] == [0xFF, 0x03, 0x01, 0x00, 0x00, 0x22, 0xD1, 0xF1];
  }

  lemma PvHeaderCrc()
    ensures Crc16([0xFF, 0x03, 0x01, 0x00, 0x00, 0x22]) == 0xF1D1
  {
    var p: seq<bv8> := [];
    PrefixStep(p, 0xFF, InitialCrc, 0x00FF);
    p := p + [0xFF];
    PrefixStep(p, 0x03, 0x00FF, 0x4100);
    p := p + [0x03];
    PrefixStep(p, 0x01, 0x4100, 0xC080);
    p := p + [0x01];
    PrefixStep(p, 0x00, 0xC080, 0xA0C1);
    p := p + [0x00];
    PrefixStep(p, 0x00, 0xA0C1, 0x9061);
    p := p + [0x00];
    PrefixStep(p, 0x22, 0x9061, 0xF1D1);
    p := p + [0x22];
    assert p == [0xFF, 0x03, 0x01, 0x00, 0x00, 0x22];
  }
}

=== FILE: legacy_client.dfy ===
/** The older integration's `RenogyBLEDevice` and `RenogyBLEClient`
    (`renogy_ha/ble.py`): the same failure-counting availability without a
    retry stamp, a decoder call without shape checks, scan-interval clamping,
    the name-prefix filter, the discovered-device registry, and the gated
    read. Its scan-interval bounds and name prefix have the same values as
    the newer integration's, so they are shared from `Constants`. */
module LegacyClient {
  import opened Common
  import opened Constants
  import FrameCodec

  const MaxFailures: nat := 3
  const UnknownName: string := "Unknown Renogy Device"
  /** The model tag handed to the decoder. */
  const DefaultModel: string := "rover"

  /** The BLE advertisement record a scan returns. */
  datatype BleDevice = BleDevice(address: string, name: Option<string>, rssi: int)

  datatype Device = Device(
    ble: BleDevice,
    address: string,
    name: string,
    rssi: int,
    lastSeen: int,
    failureCount: nat,
    available: bool,
    parsedData: Telemetry,
    model: string)

  /** `RenogyParser.parse(raw, model)` as the older code calls it. */
  type Decoder = (seq<bv8>, string) -> Decoded

  /** The constructor, at clock `now`. */
  function NewDevice(ble: BleDevice, now: int): (d: Device)
    ensures IsAvailable(d) && Consistent(d) && d.parsedData == map[]
    ensures d.address == ble.address && d.rssi == ble.rssi && d.lastSeen == now
    ensures d.ble == ble && d.model == DefaultModel
    ensures d.name == if ble.name.Some? && ble.name.value != "" then ble.name.value else UnknownName
  {
    var name := if ble.name.Some? && ble.name.value != "" then ble.name.value else UnknownName;
    Device(ble, ble.address, name, ble.rssi, now, 0, true, map[], DefaultModel)
  }

  /** `is_available`. */
  predicate IsAvailable(d: Device) {
    d.available && d.failureCount < MaxFailures
  }

  /** The flag agrees with the counter. */
  predicate Consistent(d: Device) {
    d.available <==> d.failureCount < MaxFailures
  }

  /** `update_availability(success)`. */
  function UpdateAvailability(d: Device, success: bool): (d': Device)
    ensures d' == d.(failureCount := d'.failureCount, available := d'.available)
    ensures success ==> d'.failureCount == 0 && IsAvailable(d')
    ensures !success ==> d'.failureCount == d.failureCount + 1
    ensures !success ==> (d'.available <==> d.available && d'.failureCount < MaxFailures)
    ensures Consistent(d) ==> Consistent(d')
  {
    if success then d.(failureCount := 0, available := true)
    else
      var count := d.failureCount + 1;
      if count >= MaxFailures && d.available then d.(failureCount := count, available := false)
      else d.(failureCount := count)
  }

  /** `update_availability` applied to each outcome in turn. */
  function ReplayAvailability(d: Device, outcomes: seq<bool>): Device
    decreases |outcomes|
  {
    if |outcomes| == 0 then d
    else UpdateAvailability(ReplayAvailability(d, outcomes[..|outcomes| - 1]), outcomes[|outcomes| - 1])
  }

  /** The hysteresis: from a fresh counter, `k` failures in a row leave the
      count at `k`, and the device is available exactly while `k < 3`. */
  lemma {:induction false} FailureRun(d: Device, k: nat)
    requires d.failureCount == 0 && d.available
    ensures ReplayAvailability(d, seq(k, _ => false)).failureCount == k
    ensures ReplayAvailability(d, seq(k, _ => false)).available <==> k < MaxFailures
    ensures IsAvailable(ReplayAvailability(d, seq(k, _ => false))) <==> k < MaxFailures
  {
    if k > 0 {
      var run := seq(k, _ => false);
      assert run[..k - 1] == seq(k - 1, _ => false);
      FailureRun(d, k - 1);
    }
  }

  /** One success after any run of outcomes makes the device available with
      a zero count again. */
  lemma RecoveryAfterSuccess(d: Device, outcomes: seq<bool>)
    ensures var d' := ReplayAvailability(d, outcomes + [true]);
      d'.failureCount == 0 && IsAvailable(d')
  {
    assert (outcomes + [true])[..|outcomes|] == outcomes;
  }

  /** Whether `update_parsed_data` merges: the parser is installed and
      returns a non-empty map. No length, exception-bit or CRC check is made. */
  predicate Accepts(parserInstalled: bool, decode: Decoder, model: string, raw: seq<bv8>) {
    parserInstalled && decode(raw, model).Parsed? && |decode(raw, model).fields| > 0
  }

  /** `update_parsed_data(raw)`. */
  function UpdateParsedData(d: Device, raw: seq<bv8>, parserInstalled: bool, decode: Decoder)
    : (r: (Device, bool))
    ensures r.1 <==> Accepts(parserInstalled, decode, d.model, raw)
    ensures !r.1 ==> r.0 == d
    ensures r.1 ==> r.0 == d.(parsedData := Merge(d.parsedData, decode(raw, d.model).fields))
  {
    if !parserInstalled then (d, false)
    else
      match decode(raw, d.model)
      case Raised => (d, false)
      case Parsed(fields) =>
        if |fields| == 0 then (d, false)
        else (d.(parsedData := Merge(d.parsedData, fields)), true)
  }

  /** The constructor's `max(MIN, min(scan_interval, MAX))`. */
  function ClampScanInterval(s: int): (r: int)
    ensures MinScanInterval <= r <= MaxScanInterval
    ensures MinScanInterval <= s <= MaxScanInterval ==> r == s
    ensures s < MinScanInterval ==> r == MinScanInterval
    ensures s > MaxScanInterval ==> r == MaxScanInterval
  {
    if s > MaxScanInterval then MaxScanInterval
    else if s < MinScanInterval then MinScanInterval
    else s
  }

  /** Clamping twice is clamping once, and it keeps the order of intervals. */
  lemma ClampIdempotentAndMonotone(s: int, t: int)
    ensures ClampScanInterval(ClampScanInterval(s)) == ClampScanInterval(s)
    ensures s <= t ==> ClampScanInterval(s) <= ClampScanInterval(t)
  {
  }

  /** `is_renogy_device`: a name is needed, and it must start with "BT-TH-". */
  predicate IsRenogyDevice(name: Option<string>) {
    name.Some? && RenogyPrefix <= name.value
  }

  /** The filter agrees with the prefix test written out: the name is the
      prefix followed by something. */
  lemma IsRenogyDeviceIff(name: Option<string>)
    ensures IsRenogyDevice(name) <==> exists rest: string :: name == Some(RenogyPrefix + rest)
  {
    if IsRenogyDevice(name) {
      var rest := name.value[|RenogyPrefix|..];
      assert name.value == RenogyPrefix + rest;
    }
  }

  /** The addresses of the matching advertisements, in scan order. */
  function MatchingAddresses(found: seq<BleDevice>): (r: seq<string>)
    ensures |r| <= |found|
    ensures forall a <- r :: exists i :: 0 <= i < |found| && found[i].address == a && IsRenogyDevice(found[i].name)
    ensures forall i :: 0 <= i < |found| && IsRenogyDevice(found[i].name) ==> found[i].address in r
    decreases |found|
  {
    if |found| == 0 then []
    else if IsRenogyDevice(found[0].name) then [found[0].address] + MatchingAddresses(found[1..])
    else MatchingAddresses(found[1..])
  }

  /** Scanning one more advertisement appends its address exactly when it
      matches: the result lists the matches in scan order, repeats
      included. */
  lemma {:induction false} MatchingAddressesSnoc(found: seq<BleDevice>, b: BleDevice)
    ensures MatchingAddresses(found + [b])
            == MatchingAddresses(found) + (if IsRenogyDevice(b.name) then [b.address] else [])
    decreases |found|
  {
    if |found| > 0 {
      assert (found + [b])[1..] == found[1..] + [b];
      MatchingAddressesSnoc(found[1..], b);
    } else {
      assert [b][1..] == [];
    }
  }

  /** The registry keys every device under its own address. */
  predicate WellKeyed(registry: map<string, Device>) {
    forall a <- registry :: registry[a].address == a
  }

  /** One matching advertisement: refresh the known device's handle, RSSI
      and last-seen time, or create a new one. */
  function Register(registry: map<string, Device>, ble: BleDevice, now: int): (r: map<string, Device>)
    ensures r.Keys == registry.Keys + {ble.address}
    ensures ble.address in registry ==>
      r[ble.address] == registry[ble.address].(ble := ble, rssi := ble.rssi, lastSeen := now)
    ensures ble.address !in registry ==> r[ble.address] == NewDevice(ble, now)
    ensures forall a <- registry :: a != ble.address ==> r[a] == registry[a]
  {
    if ble.address in registry then
      registry[ble.address := registry[ble.address].(ble := ble, rssi := ble.rssi, lastSeen := now)]
    else
      registry[ble.address := NewDevice(ble, now)]
  }

  /** The loop of `scan_for_devices` over the advertisements found: the
      registry gains exactly the matching addresses. */
  function ScanLoop(registry: map<string, Device>, found: seq<BleDevice>, now: int)
    : (r: (map<string, Device>, seq<string>))
    ensures r.1 == MatchingAddresses(found)
    ensures r.0.Keys == registry.Keys + (set a <- r.1)
    decreases |found|
  {
    if |found| == 0 then (registry, [])
    else if IsRenogyDevice(found[0].name) then
      var (reg, rest) := ScanLoop(Register(registry, found[0], now), found[1..], now);
      (reg, [found[0].address] + rest)
    else
      ScanLoop(registry, found[1..], now)
  }

  /** A known device keeps its counters, flag, telemetry, name and model
      across a scan, and one that was not seen is untouched. */
  lemma {:induction false} ScanKeepsKnown(registry: map<string, Device>, found: seq<BleDevice>, now: int)
    ensures var r := ScanLoop(registry, found, now);
      && (forall a <- registry ::
            && r.0[a].failureCount == registry[a].failureCount
            && r.0[a].available == registry[a].available
            && r.0[a].parsedData == registry[a].parsedData
            && r.0[a].name == registry[a].name
            && r.0[a].model == registry[a].model)
      && (forall a <- registry :: a !in r.1 ==> r.0[a] == registry[a])
    decreases |found|
  {
    if |found| > 0 {
      if IsRenogyDevice(found[0].name) {
        ScanKeepsKnown(Register(registry, found[0], now), found[1..], now);
      } else {
        ScanKeepsKnown(registry, found[1..], now);
      }
    }
  }

  /** A device the scan adds starts with a zero count, available, and no
      telemetry. */
  lemma {:induction false} ScanAddsFresh(registry: map<string, Device>, found: seq<BleDevice>, now: int)
    ensures var r := ScanLoop(registry, found, now);
      forall a <- r.0 :: a !in registry ==>
        r.0[a].failureCount == 0 && r.0[a].available && r.0[a].parsedData == map[]
    decreases |found|
  {
    if |found| > 0 {
      if IsRenogyDevice(found[0].name) {
        var reg := Register(registry, found[0], now);
        ScanAddsFresh(reg, found[1..], now);
        ScanKeepsKnown(reg, found[1..], now);
      } else {
        ScanAddsFresh(registry, found[1..], now);
      }
    }
  }

  /** Every device stays filed under its own address. */
  lemma {:induction false} ScanKeepsWellKeyed(registry: map<string, Device>, found: seq<BleDevice>, now: int)
    requires WellKeyed(registry)
    ensures WellKeyed(ScanLoop(registry, found, now).0)
    decreases |found|
  {
    if |found| > 0 {
      if IsRenogyDevice(found[0].name) {
        ScanKeepsWellKeyed(Register(registry, found[0], now), found[1..], now);
      } else {
        ScanKeepsWellKeyed(registry, found[1..], now);
      }
    }
  }

  /** `scan_for_devices`: `None` stands for `discover()` raising, which is
      caught and yields an empty list with the registry untouched. The
      result names the devices by address: the Python list holds the
      registry's own objects. */
  function ScanForDevices(registry: map<string, Device>, found: Option<seq<BleDevice>>, now: int)
    : (r: (map<string, Device>, seq<string>))
    ensures found.None? ==> r == (registry, [])
    ensures found.Some? ==> r.1 == MatchingAddresses(found.value)
    ensures found.Some? ==> r.0 == ScanLoop(registry, found.value, now).0
    ensures registry.Keys <= r.0.Keys
  {
    match found
    case None => (registry, [])
    case Some(list) => ScanLoop(registry, list, now)
  }

  /** What the connection of `read_device_data` produced. */
  datatype Exchange =
    | Failed                                           // connect, write or read raised
    | NotConnected                                     // connect returned unconnected
    | Replies(battery: seq<bv8>, pv: seq<bv8>, info: seq<bv8>)
    | DisconnectFailed(before: Exchange)               // went as `before`, then the disconnect raised

  /** The bytes handed to `update_parsed_data`: the three replies
      concatenated, when all three were read. */
  function Payload(ex: Exchange): (p: Option<seq<bv8>>)
    ensures ex.Replies? ==> p == Some(ex.battery + ex.pv + ex.info)
    ensures ex.Failed? || ex.NotConnected? ==> p.None?
    ensures ex.DisconnectFailed? ==> p == Payload(ex.before)
  {
    match ex
    case Replies(battery, pv, info) => Some(battery + pv + info)
    case DisconnectFailed(before) => Payload(before)
    case _ => None
  }

  /** Whether the `try` block of `read_device_data` sets `success`. */
  predicate Parses(ex: Exchange, parserInstalled: bool, decode: Decoder, model: string) {
    Payload(ex).Some? && Accepts(parserInstalled, decode, model, Payload(ex).value)
  }

  /** `read_device_data`: an unavailable device is skipped untouched;
      otherwise the three replies are concatenated and parsed as one, and
      the `finally` block disconnects and then calls `update_availability`.
      A disconnect that raises leaves the `finally` block early: the merge
      stays, the counter and flag are not touched, and the exception reaches
      the caller, which the `false` result stands for. */
  function ReadDeviceData(d: Device, ex: Exchange, parserInstalled: bool, decode: Decoder)
    : (r: (Device, bool))
    ensures !IsAvailable(d) ==> r == (d, false)
    ensures r.1 <==> IsAvailable(d) && !ex.DisconnectFailed? && Parses(ex, parserInstalled, decode, d.model)
    ensures IsAvailable(d) && !ex.DisconnectFailed? ==>
      r.0.failureCount == if r.1 then 0 else d.failureCount + 1
    ensures ex.DisconnectFailed? ==>
      r.0.failureCount == d.failureCount && r.0.available == d.available
    ensures IsAvailable(d) && Parses(ex, parserInstalled, decode, d.model) ==>
      r.0.parsedData == Merge(d.parsedData, decode(Payload(ex).value, d.model).fields)
    ensures !(IsAvailable(d) && Parses(ex, parserInstalled, decode, d.model)) ==>
      r.0.parsedData == d.parsedData
  {
    if !IsAvailable(d) then (d, false)
    else
      var (d1, ok) := match Payload(ex)
        case Some(raw) => UpdateParsedData(d, raw, parserInstalled, decode)
        case None => (d, false);
      if ex.DisconnectFailed? then (d1, false) else (UpdateAvailability(d1, ok), ok)
  }

  /** Replays `read_device_data` over a sequence of exchanges. */
  function ReplayReads(d: Device, exchanges: seq<Exchange>, parserInstalled: bool, decode: Decoder): Device
    decreases |exchanges|
  {
    if |exchanges| == 0 then d
    else ReplayReads(ReadDeviceData(d, exchanges[0], parserInstalled, decode).0, exchanges[1..],
                     parserInstalled, decode)
  }

  /** Through `read_device_data` alone an unavailable device stays exactly
      as it is, whatever the radio would have answered. */
  lemma {:induction false} UnavailableStaysUnavailable(d: Device, exchanges: seq<Exchange>,
                                                      parserInstalled: bool, decode: Decoder)
    requires !IsAvailable(d)
    ensures ReplayReads(d, exchanges, parserInstalled, decode) == d
    decreases |exchanges|
  {
    if |exchanges| > 0 {
      UnavailableStaysUnavailable(d, exchanges[1..], parserInstalled, decode);
    }
  }

  /** Reads keep the flag in agreement with the counter. */
  lemma {:induction false} ReadsKeepConsistent(d: Device, exchanges: seq<Exchange>,
                                              parserInstalled: bool, decode: Decoder)
    requires Consistent(d)
    ensures Consistent(ReplayReads(d, exchanges, parserInstalled, decode))
    decreases |exchanges|
  {
    if |exchanges| > 0 {
      ReadsKeepConsistent(ReadDeviceData(d, exchanges[0], parserInstalled, decode).0,
                          exchanges[1..], parserInstalled, decode);
    }
  }

  /** Three failed reads in a row from a fresh counter leave the device
      unavailable, after which reads no longer touch it. */
  lemma ThreeFailedReadsDisable(d: Device, parserInstalled: bool, decode: Decoder)
    requires d.failureCount == 0 && d.available
    ensures var d3 := ReplayReads(d, [Failed, Failed, Failed], parserInstalled, decode);
      !IsAvailable(d3) && d3.failureCount == 3 && !d3.available
  {
    var e: seq<Exchange> := [Failed, Failed, Failed];
    assert e[1..] == [Failed, Failed];
    assert e[1..][1..] == [Failed];
    assert e[1..][1..][1..] == [];
  }

  // ---------------------------------------------------------------------
  // The fixed request bytes

  /** The three request byte strings written by `read_device_data`. */
  const BatteryInfoCmd: seq<bv8> := [0x03, 0x01, 0x00, 0x00, 0x08]
  const PvInfoCmd: seq<bv8> := [0x03, 0x01, 0x10, 0x00, 0x08]
  const DeviceInfoCmd: seq<bv8> := [0x03, 0x00, 0x0C, 0x00, 0x08]

  /** Each is the six-byte Read Holding Registers header (unit id, function
      code, register, count) with the leading unit id dropped, and no CRC
      follows it. */
  lemma LegacyCommandsAreBareHeaders()
    ensures BatteryInfoCmd == FrameCodec.Header(DefaultDeviceId, 3, 256, 8)[1..]
    ensures PvInfoCmd == FrameCodec.Header(DefaultDeviceId, 3, 272, 8)[1..]
    ensures DeviceInfoCmd == FrameCodec.Header(DefaultDeviceId, 3, 12, 8)[1..]
  {
  }
}

=== FILE: poll_session.dfy ===
/** The polling coordinator of the newer integration
    (`RenogyActiveBluetoothCoordinator` in `renogy/ble.py`), with the BLE
    transport reduced to its observable outcomes: one poll session is a fold
    over the command table in which every written request either times out,
    is answered by a notification, or fails at the transport. */
module PollSession {
  import opened Common
  import opened Constants
  import opened DeviceState
  import FrameCodec
  import Bytes

  /** What the transport produced for one command of the table. */
  datatype Reply =
    | Timeout                     // no notification within the wait
    | Notified(bytes: seq<bv8>)   // the accumulated notification payload
    | WriteFailed                 // the GATT write raised

  /** One attempt at talking to the device. */
  datatype Exchange =
    | ConnectFailed  // `establish_connection` raised `BleakError` or timed out
    | Connected(notifyStarted: bool, replies: seq<Reply>, notifyStopped: bool)

  /** The parser library: whether it is installed, and its decoder. */
  datatype Parser = Parser(installed: bool, decode: Decoder)

  /** The request frame written for a command, addressed to unit 0xFF. */
  function RequestFrame(c: Command): (f: seq<bv8>)
    requires WellFormedCommand(c)
    ensures |f| == 8 && f[0] as int == DefaultDeviceId && FrameCodec.Crc16(f) == 0
    ensures Bytes.Word(f[2], f[3]) == c.register && Bytes.Word(f[4], f[5]) == c.wordCount
  {
    FrameCodec.ReadRequestLayout(DefaultDeviceId, c.functionCode, c.register, c.wordCount);
    FrameCodec.ReadRequestChecks(DefaultDeviceId, c.functionCode, c.register, c.wordCount);
    FrameCodec.ReadRequest(DefaultDeviceId, c.functionCode, c.register, c.wordCount).value
  }

  /** Whether the reply to `c` is merged into the device's telemetry. */
  predicate ReplyAccepted(parser: Parser, deviceType: string, c: Command, reply: Reply) {
    reply.Notified? && Accepts(parser.installed, parser.decode, deviceType, reply.bytes, c.register)
  }

  /** Index of the first transport failure, or the number of replies: the
      commands before it are the ones the loop processes. */
  function FirstFailure(replies: seq<Reply>): (k: nat)
    ensures k <= |replies|
    ensures forall i :: 0 <= i < k ==> replies[i] != WriteFailed
    ensures k < |replies| ==> replies[k] == WriteFailed
    decreases |replies|
  {
    if |replies| == 0 || replies[0] == WriteFailed then 0
    else 1 + FirstFailure(replies[1..])
  }

  /** Reference definition of what a session collects: the decoded field
      maps of the accepted replies, in command order, up to the first
      transport failure. */
  function Harvest(parser: Parser, deviceType: string, cmds: seq<Command>, replies: seq<Reply>): seq<Telemetry>
    requires |replies| == |cmds|
    decreases |cmds|
  {
    if |cmds| == 0 || replies[0] == WriteFailed then []
    else
      var rest := Harvest(parser, deviceType, cmds[1..], replies[1..]);
      if ReplyAccepted(parser, deviceType, cmds[0], replies[0]) then
        [parser.decode(replies[0].bytes, deviceType, cmds[0].register).fields] + rest
      else rest
  }

  /** Successive `dict.update` calls. */
  function MergeAll(base: Telemetry, updates: seq<Telemetry>): (r: Telemetry)
    ensures base.Keys <= r.Keys
    decreases |updates|
  {
    if |updates| == 0 then base else MergeAll(Merge(base, updates[0]), updates[1..])
  }

  /** What the command loop leaves: the device, whether any command
      parsed, whether it ran to the end, and the commands whose request
      frames it wrote. */
  datatype LoopResult = LoopResult(device: Device, anyParsed: bool, completed: bool, sent: seq<Command>)

  /** The `for cmd_name, cmd in COMMANDS[...]` loop: each command's frame is
      written, a timeout skips the command, a notification is parsed and
      merged, and a transport failure leaves the loop. */
  function RunCommands(d: Device, cmds: seq<Command>, replies: seq<Reply>, parser: Parser): (r: LoopResult)
    requires |replies| == |cmds|
    ensures r.device == d.(parsedData := r.device.parsedData)
    ensures r.completed <==> FirstFailure(replies) == |replies|
    ensures r.sent == cmds[..FirstFailure(replies)]
    ensures r.anyParsed <==> Harvest(parser, d.deviceType, cmds, replies) != []
    decreases |cmds|
  {
    if |cmds| == 0 then LoopResult(d, false, true, [])
    else
      PrefixCons(cmds, FirstFailure(replies[1..]));
      match replies[0]
      case WriteFailed => LoopResult(d, false, false, [])
      case Timeout =>
        var rest := RunCommands(d, cmds[1..], replies[1..], parser);
        rest.(sent := [cmds[0]] + rest.sent)
      case Notified(bytes) =>
        var (d1, ok) := UpdateParsedData(d, bytes, cmds[0].register, parser.installed, parser.decode);
        var rest := RunCommands(d1, cmds[1..], replies[1..], parser);
        rest.(anyParsed := ok || rest.anyParsed, sent := [cmds[0]] + rest.sent)
  }

  lemma PrefixCons<T>(s: seq<T>, k: nat)
    requires k < |s|
    ensures [s[0]] + s[1..][..k] == s[..k + 1]
  {
  }

  /** The request frames of a list of commands, in order. */
  function Frames(cmds: seq<Command>): (f: seq<seq<bv8>>)
    requires forall c <- cmds :: WellFormedCommand(c)
    ensures |f| == |cmds|
    ensures forall i :: 0 <= i < |cmds| ==> f[i] == RequestFrame(cmds[i])
  {
    seq(|cmds|, i requires 0 <= i < |cmds| => RequestFrame(cmds[i]))
  }

  /** The loop's telemetry is the old telemetry updated, in order, with
      every harvested field map. */
  lemma {:induction false} RunCommandsMerges(d: Device, cmds: seq<Command>, replies: seq<Reply>, parser: Parser)
    requires |replies| == |cmds|
    ensures RunCommands(d, cmds, replies, parser).device.parsedData
            == MergeAll(d.parsedData, Harvest(parser, d.deviceType, cmds, replies))
    decreases |cmds|
  {
    if |cmds| > 0 && replies[0] != WriteFailed {
      if replies[0].Notified? {
        var (d1, ok) := UpdateParsedData(d, replies[0].bytes, cmds[0].register, parser.installed, parser.decode);
        RunCommandsMerges(d1, cmds[1..], replies[1..], parser);
      } else {
        RunCommandsMerges(d, cmds[1..], replies[1..], parser);
      }
    }
  }

  /** The transport outcome lists one reply per command of the table, so the
      fold and the table line up. */
  predicate ExchangeFits(deviceType: string, ex: Exchange) {
    (ex.Connected? && ex.notifyStarted && Commands(deviceType).Some?) ==>
      |ex.replies| == |Commands(deviceType).value|
  }

  /** Whether the command loop runs at all: connected, notifications
      started, and a command table for the device type (otherwise the
      `KeyError` is caught as a session error). */
  predicate LoopRuns(deviceType: string, ex: Exchange) {
    ex.Connected? && ex.notifyStarted && Commands(deviceType).Some?
  }

  datatype SessionResult = SessionResult(device: Device, success: bool, sent: seq<seq<bv8>>)

  /** One connection attempt of `_read_device_data`, from connecting to the
      single `update_availability(success)` call. */
  function Session(d: Device, ex: Exchange, parser: Parser, now: int): (r: SessionResult)
    requires ExchangeFits(d.deviceType, ex)
    ensures r.success <==>
      LoopRuns(d.deviceType, ex)
      && FirstFailure(ex.replies) == |ex.replies|
      && ex.notifyStopped
      && Harvest(parser, d.deviceType, Commands(d.deviceType).value, ex.replies) != []
    ensures r.device.failureCount == if r.success then 0 else d.failureCount + 1
    ensures r.device == UpdateAvailability(d.(parsedData := r.device.parsedData), r.success, now)
    ensures LoopRuns(d.deviceType, ex) ==> |r.sent| == FirstFailure(ex.replies)
    ensures !LoopRuns(d.deviceType, ex) ==> r.sent == [] && r.device.parsedData == d.parsedData
  {
    if !LoopRuns(d.deviceType, ex) then
      SessionResult(UpdateAvailability(d, false, now), false, [])
    else
      var loop := RunCommands(d, Commands(d.deviceType).value, ex.replies, parser);
      var success := loop.completed && ex.notifyStopped && loop.anyParsed;
      PrefixWellFormed(Commands(d.deviceType).value, FirstFailure(ex.replies));
      SessionResult(UpdateAvailability(loop.device, success, now), success, Frames(loop.sent))
  }

  lemma PrefixWellFormed(cmds: seq<Command>, k: nat)
    requires k <= |cmds| && forall c <- cmds :: WellFormedCommand(c)
    ensures forall c <- cmds[..k] :: WellFormedCommand(c)
  {
    assert forall c <- cmds[..k] :: c in cmds;
  }

  /** What a session leaves in the telemetry and on the wire: every
      harvested field map merged in order, and the table's frames in order. */
  lemma SessionTelemetry(d: Device, ex: Exchange, parser: Parser, now: int)
    requires ExchangeFits(d.deviceType, ex) && LoopRuns(d.deviceType, ex)
    ensures var r := Session(d, ex, parser, now);
      && r.device.parsedData
         == MergeAll(d.parsedData, Harvest(parser, d.deviceType, Commands(d.deviceType).value, ex.replies))
      && forall i :: 0 <= i < |r.sent| ==> r.sent[i] == RequestFrame(Commands(d.deviceType).value[i])
  {
    RunCommandsMerges(d, Commands(d.deviceType).value, ex.replies, parser);
  }

  // ---------------------------------------------------------------------
  // The coordinator around the session

  /** How the `_async_poll` call inside `async_request_refresh` ended. */
  datatype PollCall =
    | PollReturned(ex: Exchange)  // the poll ran a session on this exchange and returned
    | PollRaised                  // an exception escaped after the device was prepared
    | ListenerRaised(ex: Exchange) // the poll ran a session on this exchange, then a listener raised

  /** The advertisement data a poll starts from. */
  datatype ServiceInfo = ServiceInfo(
    address: string,
    name: string,
    deviceName: Option<string>,
    advertisementRssi: Option<int>,
    deviceRssi: Option<int>)

  datatype Coordinator = Coordinator(
    address: string,
    deviceType: string,
    scanInterval: int,
    device: Option<Device>,
    lastPollTime: Option<int>,
    data: Option<Telemetry>,
    lastUpdateSuccess: bool,
    connectionInProgress: bool)

  /** The start of `_read_device_data`: create the device on first use, or
      refresh its name, RSSI and type from the advertisement, keeping its
      counters, stamp and telemetry. */
  function PrepareDevice(current: Option<Device>, info: ServiceInfo, deviceType: string, now: int): (d: Device)
    ensures d.deviceType == deviceType
    ensures current.Some? ==> d == current.value.(name := d.name, rssi := d.rssi, deviceType := deviceType)
    ensures current.None? ==> d == NewDevice(info.address, info.deviceName, info.advertisementRssi, deviceType, now)
    ensures current.Some? ==>
      && d.failureCount == current.value.failureCount
      && d.available == current.value.available
      && d.lastUnavailableTime == current.value.lastUnavailableTime
      && d.parsedData == current.value.parsedData
      && d.rssi == (if info.advertisementRssi.Some? then info.advertisementRssi else info.deviceRssi)
      && (info.name != "" && info.name != UnknownName ==> d.name == info.name)
      && (info.name == "" || info.name == UnknownName ==> d.name == current.value.name)
  {
    match current
    case None => NewDevice(info.address, info.deviceName, info.advertisementRssi, deviceType, now)
    case Some(known) =>
      var name := if info.name != "" && info.name != UnknownName then info.name else known.name;
      var rssi := if info.advertisementRssi.Some? then info.advertisementRssi else info.deviceRssi;
      known.(name := name, rssi := rssi, deviceType := deviceType)
  }

  /** `_read_device_data`: prepare the device, run one session, publish the
      telemetry to `data` only on a successful session with something parsed. */
  function ReadDeviceData(c: Coordinator, info: ServiceInfo, ex: Exchange, parser: Parser, now: int)
    : (r: (Coordinator, bool))
    requires ExchangeFits(c.deviceType, ex)
    ensures r.0.device.Some? && !r.0.connectionInProgress
    ensures r.0.lastUpdateSuccess == r.1
    ensures r.0.device.value.failureCount
            == if r.1 then 0 else PrepareDevice(c.device, info, c.deviceType, now).failureCount + 1
    ensures r.1 && |r.0.device.value.parsedData| > 0 ==> r.0.data == Some(r.0.device.value.parsedData)
    ensures !(r.1 && |r.0.device.value.parsedData| > 0) ==> r.0.data == c.data
    ensures r.0.device == Some(Session(PrepareDevice(c.device, info, c.deviceType, now), ex, parser, now).device)
    ensures r.1 == Session(PrepareDevice(c.device, info, c.deviceType, now), ex, parser, now).success
    ensures r.0.lastPollTime == c.lastPollTime && r.0.scanInterval == c.scanInterval
    ensures r.0.deviceType == c.deviceType && r.0.address == c.address
  {
    var d := PrepareDevice(c.device, info, c.deviceType, now);
    var s := Session(d, ex, parser, now);
    var data := if s.success && |s.device.parsedData| > 0 then Some(s.device.parsedData) else c.data;
    (c.(device := Some(s.device), data := data, lastUpdateSuccess := s.success,
        connectionInProgress := false), s.success)
  }

  /** `_async_poll`: skipped while a connection is in progress; otherwise
      stamps the poll time, reads, and reports whether the data callback and
      the listeners are notified. */
  function Poll(c: Coordinator, info: ServiceInfo, ex: Exchange, parser: Parser, now: int)
    : (r: (Coordinator, bool))
    requires ExchangeFits(c.deviceType, ex)
    ensures c.connectionInProgress ==> r == (c, false)
    ensures !c.connectionInProgress ==> r.0.lastPollTime == Some(now) && !r.0.connectionInProgress
    ensures r.1 <==> !c.connectionInProgress && r.0.lastUpdateSuccess
    ensures r.1 ==> r.0.device.Some? && |r.0.device.value.parsedData| > 0
                    && r.0.data == Some(r.0.device.value.parsedData)
    ensures !c.connectionInProgress ==>
      r.0.device == Some(Session(PrepareDevice(c.device, info, c.deviceType, now), ex, parser, now).device)
    ensures !c.connectionInProgress ==>
      var s := Session(PrepareDevice(c.device, info, c.deviceType, now), ex, parser, now);
      r.1 <==> s.success && |s.device.parsedData| > 0
    ensures !r.1 ==> r.0.data == c.data
    ensures r.0.deviceType == c.deviceType
  {
    if c.connectionInProgress then (c, false)
    else
      var (c1, success) := ReadDeviceData(c.(lastPollTime := Some(now)), info, ex, parser, now);
      var notify := success && |c1.device.value.parsedData| > 0;
      (if notify then c1 else c1.(lastUpdateSuccess := false), notify)
  }

  /** `async_request_refresh`, the path `_handle_refresh_interval` takes
      every `scan_interval`: skipped while a connection is in progress, and
      without service info only `last_update_success` drops. A poll that
      returns sets `last_update_success` and notifies the listeners whatever
      the read gave; a poll that raises counts one more failure on the
      device it leaves: the prepared device when the exception came before
      the session, the session's device, with its merges and published
      `data`, when a listener raised after a notifying session. The flag
      says whether the refresh's own notification loop ran. */
  function RequestRefresh(c: Coordinator, info: Option<ServiceInfo>, call: PollCall, parser: Parser, now: int)
    : (r: (Coordinator, bool))
    requires !call.PollRaised? ==> ExchangeFits(c.deviceType, call.ex)
    ensures c.connectionInProgress ==> r == (c, false)
    ensures !c.connectionInProgress && info.None? ==> r == (c.(lastUpdateSuccess := false), false)
    ensures !c.connectionInProgress && info.Some? ==>
      (r.1 <==> call.PollReturned?) && (r.0.lastUpdateSuccess <==> call.PollReturned?)
    ensures !c.connectionInProgress && info.Some? && call.PollReturned? ==>
      r.0 == Poll(c, info.value, call.ex, parser, now).0.(lastUpdateSuccess := true)
    ensures !c.connectionInProgress && info.Some? && call.PollRaised? ==>
      && r.0.device == Some(UpdateAvailability(PrepareDevice(c.device, info.value, c.deviceType, now), false, now))
      && r.0.lastPollTime == Some(now) && r.0.data == c.data && !r.0.connectionInProgress
    ensures !c.connectionInProgress && info.Some? && call.ListenerRaised? ==>
      var p := Poll(c, info.value, call.ex, parser, now).0;
      && p.device.Some?
      && r.0 == p.(device := Some(UpdateAvailability(p.device.value, false, now)), lastUpdateSuccess := false)
    ensures DeviceConsistent(c) ==> DeviceConsistent(r.0)
  {
    if c.connectionInProgress then (c, false)
    else if info.None? then (c.(lastUpdateSuccess := false), false)
    else
      match call
      case PollReturned(ex) =>
        PollKeepsConsistent(c, info.value, ex, parser, now);
        var (c1, _) := Poll(c, info.value, ex, parser, now);
        (c1.(lastUpdateSuccess := true), true)
      case PollRaised =>
        var d := PrepareDevice(c.device, info.value, c.deviceType, now);
        (c.(lastPollTime := Some(now), device := Some(UpdateAvailability(d, false, now)),
            lastUpdateSuccess := false, connectionInProgress := false), false)
      case ListenerRaised(ex) =>
        PollKeepsConsistent(c, info.value, ex, parser, now);
        var (c1, _) := Poll(c, info.value, ex, parser, now);
        (c1.(device := Some(UpdateAvailability(c1.device.value, false, now)), lastUpdateSuccess := false), false)
  }

  /** A listener that raises after a notifying session costs the device a
      failure, but the session's merges and the published `data` stay:
      the count goes from 0 to 1 and the device stays available. */
  lemma ListenerFailureKeepsSession(c: Coordinator, info: ServiceInfo, ex: Exchange, parser: Parser, now: int)
    requires ExchangeFits(c.deviceType, ex) && !c.connectionInProgress
    requires Poll(c, info, ex, parser, now).1
    ensures var p := Poll(c, info, ex, parser, now).0;
      var r := RequestRefresh(c, Some(info), ListenerRaised(ex), parser, now).0;
      && r.device.Some? && r.device.value.parsedData == p.device.value.parsedData
      && r.data == p.data == Some(p.device.value.parsedData)
      && r.device.value.failureCount == 1 && IsAvailable(r.device.value)
      && !r.lastUpdateSuccess
  {
  }

  /** On the periodic path a failed read is still reported as an update:
      the refresh overwrites the `False` that `_async_poll` left and
      notifies the listeners, while the device has counted the failure. */
  lemma RefreshReportsFailedRead(c: Coordinator, info: ServiceInfo, ex: Exchange, parser: Parser, now: int)
    requires ExchangeFits(c.deviceType, ex) && !c.connectionInProgress
    requires !Poll(c, info, ex, parser, now).1
    ensures var p := Poll(c, info, ex, parser, now);
      var r := RequestRefresh(c, Some(info), PollReturned(ex), parser, now);
      && !p.0.lastUpdateSuccess && r.0.lastUpdateSuccess && r.1
      && r.0.device == p.0.device
  {
  }

  /** `_async_handle_unavailable`: the host reports the device gone; one
      more failure is counted on it, `last_update_success` drops, and the
      listeners are notified. */
  function HandleUnavailable(c: Coordinator, now: int): (r: Coordinator)
    ensures r == c.(device := r.device, lastUpdateSuccess := false)
    ensures c.device.None? ==> r.device.None?
    ensures c.device.Some? ==>
      && r.device.Some?
      && r.device.value.failureCount == c.device.value.failureCount + 1
      && SameExceptAvailability(c.device.value, r.device.value)
      && (r.device.value.available <==> c.device.value.available && r.device.value.failureCount < MaxFailures)
    ensures DeviceConsistent(c) ==> DeviceConsistent(r)
  {
    match c.device
    case None => c.(lastUpdateSuccess := false)
    case Some(d) => c.(device := Some(UpdateAvailability(d, false, now)), lastUpdateSuccess := false)
  }

  /** One scheduled poll: the advertisement, the transport outcome and the
      clock. */
  datatype PollStep = PollStep(info: ServiceInfo, ex: Exchange, now: int)

  predicate StepsFit(deviceType: string, steps: seq<PollStep>) {
    forall i :: 0 <= i < |steps| ==> ExchangeFits(deviceType, steps[i].ex)
  }

  /** `_async_poll` applied to each scheduled poll in turn. */
  function ReplayPolls(c: Coordinator, steps: seq<PollStep>, parser: Parser): Coordinator
    requires StepsFit(c.deviceType, steps)
    decreases |steps|
  {
    if |steps| == 0 then c
    else
      var c1 := Poll(c, steps[0].info, steps[0].ex, parser, steps[0].now).0;
      assert forall i :: 0 <= i < |steps| - 1 ==> steps[1..][i] == steps[i + 1];
      ReplayPolls(c1, steps[1..], parser)
  }

  /** The coordinator's device, once it has one, satisfies `Consistent`. */
  predicate DeviceConsistent(c: Coordinator) {
    c.device.Some? ==> Consistent(c.device.value)
  }

  /** A poll keeps the coordinator's device consistent. */
  lemma PollKeepsConsistent(c: Coordinator, info: ServiceInfo, ex: Exchange, parser: Parser, now: int)
    requires ExchangeFits(c.deviceType, ex)
    ensures DeviceConsistent(c) ==> DeviceConsistent(Poll(c, info, ex, parser, now).0)
  {
  }

  /** From a coordinator without a device, or with a consistent one, any
      sequence of polls leaves a consistent device: available exactly while
      fewer than three sessions in a row failed, and stamped exactly while
      unavailable. */
  lemma {:induction false} PollsKeepConsistent(c: Coordinator, steps: seq<PollStep>, parser: Parser)
    requires StepsFit(c.deviceType, steps) && DeviceConsistent(c)
    ensures DeviceConsistent(ReplayPolls(c, steps, parser))
    decreases |steps|
  {
    if |steps| > 0 {
      var c1 := Poll(c, steps[0].info, steps[0].ex, parser, steps[0].now).0;
      PollKeepsConsistent(c, steps[0].info, steps[0].ex, parser, steps[0].now);
      assert forall i :: 0 <= i < |steps| - 1 ==> steps[1..][i] == steps[i + 1];
      PollsKeepConsistent(c1, steps[1..], parser);
    }
  }

  /** `_needs_poll`: the host must be running, a connectable device known and
      no connection in progress; then poll when never polled or when at
      least `scan_interval` seconds have passed. */
  function NeedsPoll(running: bool, connectable: bool, inProgress: bool,
                     lastPoll: Option<int>, now: int, scanInterval: int): (r: bool)
    ensures r ==> running && connectable && !inProgress
    ensures r && lastPoll.Some? ==> now - lastPoll.value >= scanInterval
    ensures running && connectable && !inProgress && lastPoll.None? ==> r
  {
    if !running then false
    else if !connectable then false
    else if inProgress then false
    else if lastPoll.None? then true
    else now - lastPoll.value >= scanInterval
  }

  /** Waiting longer never turns a due poll into one that is not due. */
  lemma NeedsPollMonotone(running: bool, connectable: bool, inProgress: bool,
                          lastPoll: Option<int>, now: int, later: int, scanInterval: int)
    requires now <= later
    requires NeedsPoll(running, connectable, inProgress, lastPoll, now, scanInterval)
    ensures NeedsPoll(running, connectable, inProgress, lastPoll, later, scanInterval)
  {
  }

  /** A poll is due exactly `scan_interval` seconds after the last one. */
  lemma NeedsPollThreshold(lastPoll: int, now: int, scanInterval: int)
    ensures NeedsPoll(true, true, false, Some(lastPoll), now, scanInterval)
            <==> now >= lastPoll + scanInterval
  {
  }

  // ---------------------------------------------------------------------
  // Session properties

  /** The loop parses something exactly when some command before the first
      transport failure has an accepted reply: with `Session`'s contract,
      partial success is success, whatever the other replies were. */
  lemma {:induction false} HarvestNonEmptyIff(parser: Parser, deviceType: string,
                                              cmds: seq<Command>, replies: seq<Reply>)
    requires |replies| == |cmds|
    ensures Harvest(parser, deviceType, cmds, replies) != []
            <==> exists i :: 0 <= i < FirstFailure(replies)
                             && ReplyAccepted(parser, deviceType, cmds[i], replies[i])
    decreases |cmds|
  {
    if |cmds| > 0 && replies[0] != WriteFailed {
      HarvestNonEmptyIff(parser, deviceType, cmds[1..], replies[1..]);
      var k := FirstFailure(replies);
      assert k == 1 + FirstFailure(replies[1..]);
      if Harvest(parser, deviceType, cmds, replies) != [] {
        if !ReplyAccepted(parser, deviceType, cmds[0], replies[0]) {
          var j :| 0 <= j < FirstFailure(replies[1..])
                   && ReplyAccepted(parser, deviceType, cmds[1..][j], replies[1..][j]);
          assert ReplyAccepted(parser, deviceType, cmds[j + 1], replies[j + 1]);
        }
      } else {
        forall i | 0 <= i < k
          ensures !ReplyAccepted(parser, deviceType, cmds[i], replies[i])
        {
          if i > 0 {
            assert cmds[1..][i - 1] == cmds[i] && replies[1..][i - 1] == replies[i];
          }
        }
      }
    }
  }

  /** With every reply a timeout except one accepted notification, the
      harvest is exactly that reply's fields. */
  lemma {:induction false} SingleReplyHarvest(parser: Parser, deviceType: string,
                                              cmds: seq<Command>, replies: seq<Reply>, j: nat)
    requires |replies| == |cmds| && j < |cmds|
    requires forall i :: 0 <= i < |replies| && i != j ==> replies[i] == Timeout
    requires ReplyAccepted(parser, deviceType, cmds[j], replies[j])
    ensures Harvest(parser, deviceType, cmds, replies)
            == [parser.decode(replies[j].bytes, deviceType, cmds[j].register).fields]
    decreases |cmds|
  {
    if j == 0 {
      NoneAccepted(parser, deviceType, cmds[1..], replies[1..]);
    } else {
      SingleReplyHarvest(parser, deviceType, cmds[1..], replies[1..], j - 1);
    }
  }

  lemma {:induction false} NoneAccepted(parser: Parser, deviceType: string,
                                        cmds: seq<Command>, replies: seq<Reply>)
    requires |replies| == |cmds|
    requires forall i :: 0 <= i < |replies| ==> replies[i] == Timeout
    ensures Harvest(parser, deviceType, cmds, replies) == []
    ensures FirstFailure(replies) == |replies|
    decreases |cmds|
  {
    if |cmds| > 0 {
      NoneAccepted(parser, deviceType, cmds[1..], replies[1..]);
    }
  }

  /** The scenario of one parsed command among timeouts: success, the
      counter reset, and exactly that command's fields merged over the old
      telemetry. */
  lemma PartialSuccess(d: Device, replies: seq<Reply>, parser: Parser, now: int, j: nat)
    requires Commands(d.deviceType).Some?
    requires |replies| == |Commands(d.deviceType).value| && j < |replies|
    requires forall i :: 0 <= i < |replies| && i != j ==> replies[i] == Timeout
    requires ReplyAccepted(parser, d.deviceType, Commands(d.deviceType).value[j], replies[j])
    ensures var r := Session(d, Connected(true, replies, true), parser, now);
      && r.success
      && r.device.failureCount == 0
      && r.device.parsedData == Merge(d.parsedData,
           parser.decode(replies[j].bytes, d.deviceType, Commands(d.deviceType).value[j].register).fields)
  {
    var cmds := Commands(d.deviceType).value;
    var f := parser.decode(replies[j].bytes, d.deviceType, cmds[j].register).fields;
    SingleReplyHarvest(parser, d.deviceType, cmds, replies, j);
    SessionTelemetry(d, Connected(true, replies, true), parser, now);
    NoWriteFailure(replies);
    assert MergeAll(d.parsedData, [f]) == MergeAll(Merge(d.parsedData, f), []);
  }

  /** A reply list without a transport failure is processed to the end. */
  lemma {:induction false} NoWriteFailure(replies: seq<Reply>)
    requires forall i :: 0 <= i < |replies| ==> replies[i] != WriteFailed
    ensures FirstFailure(replies) == |replies|
    decreases |replies|
  {
    if |replies| > 0 {
      NoWriteFailure(replies[1..]);
    }
  }

  /** A transport failure in the middle of the loop fails the session but
      keeps what the earlier commands merged. */
  lemma MidLoopFailureKeepsEarlierMerges(d: Device, replies: seq<Reply>, stopped: bool,
                                         parser: Parser, now: int)
    requires Commands(d.deviceType).Some? && |replies| == |Commands(d.deviceType).value|
    requires FirstFailure(replies) < |replies|
    ensures var r := Session(d, Connected(true, replies, stopped), parser, now);
      && !r.success
      && r.device.failureCount == d.failureCount + 1
      && r.device.parsedData
         == MergeAll(d.parsedData, Harvest(parser, d.deviceType, Commands(d.deviceType).value, replies))
      && d.parsedData.Keys <= r.device.parsedData.Keys
  {
    SessionTelemetry(d, Connected(true, replies, stopped), parser, now);
  }

  /** An exchange in which nothing is accepted counts as one failure. */
  lemma AllTimeoutsFail(d: Device, replies: seq<Reply>, parser: Parser, now: int)
    requires Commands(d.deviceType).Some? && |replies| == |Commands(d.deviceType).value|
    requires forall i :: 0 <= i < |replies| ==> replies[i] == Timeout
    ensures var r := Session(d, Connected(true, replies, true), parser, now);
      && !r.success
      && r.device.failureCount == d.failureCount + 1
      && r.device.parsedData == d.parsedData
      && |r.sent| == |replies|
  {
    NoneAccepted(parser, d.deviceType, Commands(d.deviceType).value, replies);
    SessionTelemetry(d, Connected(true, replies, true), parser, now);
  }

  /** Each session writes the request frames of the table, in table order. */
  lemma SessionWritesTableInOrder(d: Device, ex: Exchange, parser: Parser, now: int)
    requires ExchangeFits(d.deviceType, ex) && LoopRuns(d.deviceType, ex)
    ensures var r := Session(d, ex, parser, now);
      forall i :: 0 <= i < |r.sent| ==> r.sent[i] == RequestFrame(Commands(d.deviceType).value[i])
  {
    SessionTelemetry(d, ex, parser, now);
  }

  // ---------------------------------------------------------------------
  // Listener list

  /** `async_add_listener`: append unless already registered. */
  function AddListener<L(==)>(ls: seq<L>, cb: L): (r: seq<L>)
    ensures cb in r
    ensures forall x <- r :: x in ls || x == cb
    ensures forall x <- ls :: x in r
    ensures |ls| <= |r| && r[..|ls|] == ls
    ensures NoDuplicates(ls) ==> NoDuplicates(r)
  {
    if cb in ls then ls else ls + [cb]
  }

  /** The position of the first occurrence of `cb`. */
  function FirstIndex<L(==)>(ls: seq<L>, cb: L): (i: nat)
    requires cb in ls
    ensures i < |ls| && ls[i] == cb && cb !in ls[..i]
    decreases |ls|
  {
    if ls[0] == cb then 0
    else
      var i := FirstIndex(ls[1..], cb);
      assert ls[..i + 1] == [ls[0]] + ls[1..][..i];
      i + 1
  }

  /** The returned `remove_listener`: `list.remove` drops the first
      occurrence and keeps the others in order, and the guard makes it a
      no-op when absent. */
  function RemoveListener<L(==)>(ls: seq<L>, cb: L): (r: seq<L>)
    ensures cb !in ls ==> r == ls
    ensures cb in ls ==> exists i :: 0 <= i < |ls| && ls[i] == cb && cb !in ls[..i] && r == ls[..i] + ls[i + 1..]
    ensures cb in ls ==> |r| == |ls| - 1
    ensures forall x <- r :: x in ls
    ensures forall x <- ls :: x != cb ==> x in r
  {
    if cb in ls then
      var i := FirstIndex(ls, cb);
      assert ls == ls[..i] + [ls[i]] + ls[i + 1..];
      ls[..i] + ls[i + 1..]
    else ls
  }

  /** Registering twice is the same as registering once. */
  lemma AddListenerIdempotent<L>(ls: seq<L>, cb: L)
    ensures AddListener(AddListener(ls, cb), cb) == AddListener(ls, cb)
  {
  }

  /** Removing a listener that was just added restores the list. */
  lemma RemoveUndoesAdd<L>(ls: seq<L>, cb: L)
    requires cb !in ls
    ensures RemoveListener(AddListener(ls, cb), cb) == ls
  {
    RemoveAppended(ls, cb);
  }

  lemma RemoveAppended<L>(ls: seq<L>, cb: L)
    requires cb !in ls
    ensures RemoveListener(ls + [cb], cb) == ls
  {
    var i := FirstIndex(ls + [cb], cb);
    assert i == |ls|;
    assert (ls + [cb])[..|ls|] == ls;
  }

  /** In a list without duplicates, removal takes the listener out for good. */
  lemma RemoveFromDistinct<L>(ls: seq<L>, cb: L)
    requires NoDuplicates(ls)
    ensures cb !in RemoveListener(ls, cb)
    ensures NoDuplicates(RemoveListener(ls, cb))
  {
    if cb in ls {
      var r := RemoveListener(ls, cb);
      var i :| 0 <= i < |ls| && ls[i] == cb && cb !in ls[..i] && r == ls[..i] + ls[i + 1..];
      DeleteAt(ls, i);
    }
  }

  lemma DeleteAt<L>(ls: seq<L>, i: nat)
    requires i < |ls| && NoDuplicates(ls)
    ensures ls[i] !in ls[..i] + ls[i + 1..]
    ensures NoDuplicates(ls[..i] + ls[i + 1..])
  {
    var r := ls[..i] + ls[i + 1..];
    forall k | 0 <= k < |r|
      ensures r[k] == ls[if k < i then k else k + 1]
    {
    }
    forall j, k | 0 <= j < k < |r|
      ensures r[j] != r[k]
    {
      var j', k' := if j < i then j else j + 1, if k < i then k else k + 1;
      assert r[j] == ls[j'] && r[k] == ls[k'] && j' < k';
    }
    forall k | 0 <= k < |r|
      ensures r[k] != ls[i]
    {
      var k' := if k < i then k else k + 1;
      assert r[k] == ls[k'] && k' != i;
    }
  }
}

=== FILE: sensors.dfy ===
/** The older integration's sensor projection (`renogy_ha/sensor.py`): the
    status-code tables, the 24 sensor descriptions in four categories, the
    entities built per device, the once-per-address discovery callback, and
    the value and availability each entity reports. */
module Sensors {
  import opened Common
  import LegacyClient

  const Unknown: string := "unknown"

  /** The status tables, and the names in code order as an independent
      reference for them. */
  const BatteryTypes: map<int, string> :=
    map[0 := "open", 1 := "sealed", 2 := "gel", 3 := "lithium", 4 := "custom"]
  const BatteryTypeNames: seq<string> := ["open", "sealed", "gel", "lithium", "custom"]

  const ChargingStatuses: map<int, string> :=
    map[0 := "deactivated", 1 := "activated", 2 := "mppt", 3 := "equalizing",
        4 := "boost", 5 := "floating", 6 := "current limiting"]
  const ChargingStatusNames: seq<string> :=
    ["deactivated", "activated", "mppt", "equalizing", "boost", "floating", "current limiting"]

  const LoadStatuses: map<int, string> := map[0 := "off", 1 := "on"]
  const LoadStatusNames: seq<string> := ["off", "on"]

  /** A table is read back unambiguously: no two codes share a text and no
      code reads as the default. */
  predicate Decodable(table: map<int, string>) {
    && Unknown !in table.Values
    && forall c1 <- table, c2 <- table :: table[c1] == table[c2] ==> c1 == c2
  }

  /** The table is exactly `names` indexed by code. */
  ghost predicate Enumerates(table: map<int, string>, names: seq<string>) {
    && (forall c: int :: c in table <==> 0 <= c < |names|)
    && (forall c: int :: 0 <= c < |names| ==> table[c] == names[c])
  }

  lemma BatteryTypesTable()
    ensures Enumerates(BatteryTypes, BatteryTypeNames) && Decodable(BatteryTypes)
  {
  }

  lemma ChargingStatusesTable()
    ensures Enumerates(ChargingStatuses, ChargingStatusNames) && Decodable(ChargingStatuses)
  {
  }

  lemma LoadStatusesTable()
    ensures Enumerates(LoadStatuses, LoadStatusNames) && Decodable(LoadStatuses)
  {
  }

  /** The integer key a stored value finds when a status table is indexed
      with it. Python's `1.0 == 1` with equal hashes, so an integral float
      finds the integer key; a text value never does. */
  function TableKey(v: Value): Option<int> {
    match v
    case Int(i) => Some(i)
    case Real(r) => if r.Floor as real == r then Some(r.Floor) else None
    case Text(_) => None
  }

  /** The code stored under `key`, if any, as a table key. */
  function CodeAt(data: Telemetry, key: string): Option<int> {
    if key in data then TableKey(data[key]) else None
  }

  /** `TABLE.get(data.get(key), "unknown")`. */
  function Lookup(table: map<int, string>, data: Telemetry, key: string): (t: string)
    ensures t == Unknown || t in table.Values
  {
    var code := CodeAt(data, key);
    if code.Some? && code.value in table then table[code.value] else Unknown
  }

  /** A decodable table's text names the stored code: it is "unknown"
      exactly when no table code is stored, and two equal non-default
      texts come from the same code. */
  lemma LookupDecodes(table: map<int, string>, data: Telemetry, other: Telemetry, key: string)
    requires Decodable(table)
    ensures Lookup(table, data, key) == Unknown <==> !(CodeAt(data, key).Some? && CodeAt(data, key).value in table)
    ensures Lookup(table, data, key) == Lookup(table, other, key) != Unknown ==> CodeAt(data, key) == CodeAt(other, key)
  {
  }

  /** The concrete readings the entities show: each code in range gives its
      name, any other code, a text value or a missing key gives "unknown",
      and a float with an integral value reads like the integer. */
  lemma StatusReadings(key: string, c: int, s: string)
    ensures Lookup(BatteryTypes, map[key := Int(c)], key)
         == if 0 <= c < 5 then BatteryTypeNames[c] else Unknown
    ensures Lookup(ChargingStatuses, map[key := Int(c)], key)
         == if 0 <= c < 7 then ChargingStatusNames[c] else Unknown
    ensures Lookup(LoadStatuses, map[key := Int(c)], key)
         == if 0 <= c < 2 then LoadStatusNames[c] else Unknown
    ensures Lookup(ChargingStatuses, map[key := Real(c as real)], key)
         == Lookup(ChargingStatuses, map[key := Int(c)], key)
    ensures Lookup(BatteryTypes, map[key := Text(s)], key) == Unknown
    ensures Lookup(LoadStatuses, map[], key) == Unknown
  {
    BatteryTypesTable();
    ChargingStatusesTable();
    LoadStatusesTable();
    assert (c as real).Floor == c;
  }

  // ---------------------------------------------------------------------
  // Sensor descriptions

  datatype DeviceClass = Voltage | Current | BatteryLevel | Temperature | Power | Energy | NoClass

  /** How a description's `value_fn` reads the telemetry: the stored value
      itself, or its text in a status table. */
  datatype Rendering = Raw | Status(table: map<int, string>)

  datatype Description = Description(key: string, name: string, deviceClass: DeviceClass, rendering: Rendering)

  const BatterySensors: seq<Description> := [
    Description("battery_voltage", "Battery Voltage", Voltage, Raw),
    Description("battery_current", "Battery Current", Current, Raw),
    Description("battery_percentage", "Battery Percentage", BatteryLevel, Raw),
    Description("battery_temperature", "Battery Temperature", Temperature, Raw),
    Description("battery_type", "Battery Type", NoClass, Status(BatteryTypes)),
    Description("charging_amp_hours_today", "Charging Amp Hours Today", NoClass, Raw),
    Description("discharging_amp_hours_today", "Discharging Amp Hours Today", NoClass, Raw),
    Description("charging_status", "Charging Status", NoClass, Status(ChargingStatuses))
  ]

  const PvSensors: seq<Description> := [
    Description("pv_voltage", "PV Voltage", Voltage, Raw),
    Description("pv_current", "PV Current", Current, Raw),
    Description("pv_power", "PV Power", Power, Raw),
    Description("max_charging_power_today", "Max Charging Power Today", Power, Raw),
    Description("power_generation_today", "Power Generation Today", Energy, Raw),
    Description("power_generation_total", "Power Generation Total", Energy, Raw)
  ]

  const LoadSensors: seq<Description> := [
    Description("load_voltage", "Load Voltage", Voltage, Raw),
    Description("load_current", "Load Current", Current, Raw),
    Description("load_power", "Load Power", Power, Raw),
    Description("load_status", "Load Status", NoClass, Status(LoadStatuses)),
    Description("power_consumption_today", "Power Consumption Today", Energy, Raw)
  ]

  const ControllerSensors: seq<Description> := [
    Description("controller_temperature", "Controller Temperature", Temperature, Raw),
    Description("device_id", "Device ID", NoClass, Raw),
    Description("model", "Model", NoClass, Raw),
    Description("firmware_version", "Firmware Version", NoClass, Raw),
    Description("max_discharging_power_today", "Max Discharging Power Today", Power, Raw)
  ]

  /** `ALL_SENSORS`, in category order. */
  const AllSensors: seq<Description> := BatterySensors + PvSensors + LoadSensors + ControllerSensors

  predicate DistinctKeys(s: seq<Description>) {
    forall i, j :: 0 <= i < j < |s| ==> s[i].key != s[j].key
  }

  /** No key of `s` is a key of `t`. */
  predicate KeysApart(s: seq<Description>, t: seq<Description>) {
    forall i, j :: 0 <= i < |s| && 0 <= j < |t| ==> s[i].key != t[j].key
  }

  lemma DistinctConcat(s: seq<Description>, t: seq<Description>)
    requires DistinctKeys(s) && DistinctKeys(t) && KeysApart(s, t)
    ensures DistinctKeys(s + t)
  {
    forall i, j | 0 <= i < j < |s + t|
      ensures (s + t)[i].key != (s + t)[j].key
    {
      if j < |s| {
        assert (s + t)[i] == s[i] && (s + t)[j] == s[j];
      } else if i < |s| {
        assert (s + t)[i] == s[i] && (s + t)[j] == t[j - |s|];
      } else {
        assert (s + t)[i] == t[i - |s|] && (s + t)[j] == t[j - |s|];
      }
    }
  }

  lemma ApartConcat(s: seq<Description>, t: seq<Description>, u: seq<Description>)
    requires KeysApart(s, u) && KeysApart(t, u)
    ensures KeysApart(s + t, u)
  {
    forall i, j | 0 <= i < |s + t| && 0 <= j < |u|
      ensures (s + t)[i].key != u[j].key
    {
      if i < |s| {
        assert (s + t)[i] == s[i];
      } else {
        assert (s + t)[i] == t[i - |s|];
      }
    }
  }

  lemma BatteryKeysDistinct()
    ensures DistinctKeys(BatterySensors)
  {
  }

  lemma PvKeysDistinct()
    ensures DistinctKeys(PvSensors)
  {
  }

  lemma LoadKeysDistinct()
    ensures DistinctKeys(LoadSensors)
  {
  }

  lemma ControllerKeysDistinct()
    ensures DistinctKeys(ControllerSensors)
  {
  }

  lemma BatteryPvApart()
    ensures KeysApart(BatterySensors, PvSensors)
  {
  }

  lemma BatteryLoadApart()
    ensures KeysApart(BatterySensors, LoadSensors)
  {
  }

  lemma BatteryControllerApart()
    ensures KeysApart(BatterySensors, ControllerSensors)
  {
  }

  lemma PvLoadApart()
    ensures KeysApart(PvSensors, LoadSensors)
  {
  }

  lemma PvControllerApart()
    ensures KeysApart(PvSensors, ControllerSensors)
  {
  }

  lemma LoadControllerApart()
    ensures KeysApart(LoadSensors, ControllerSensors)
  {
  }

  /** No key is used by two descriptions. */
  lemma KeysDistinct()
    ensures |AllSensors| == 24
    ensures DistinctKeys(AllSensors)
  {
    BatteryKeysDistinct(); PvKeysDistinct(); LoadKeysDistinct(); ControllerKeysDistinct();
    BatteryPvApart(); BatteryLoadApart(); BatteryControllerApart();
    PvLoadApart(); PvControllerApart(); LoadControllerApart();
    DistinctConcat(BatterySensors, PvSensors);
    ApartConcat(BatterySensors, PvSensors, LoadSensors);
    DistinctConcat(BatterySensors + PvSensors, LoadSensors);
    ApartConcat(BatterySensors, PvSensors, ControllerSensors);
    ApartConcat(BatterySensors + PvSensors, LoadSensors, ControllerSensors);
    DistinctConcat(BatterySensors + PvSensors + LoadSensors, ControllerSensors);
  }

  // ---------------------------------------------------------------------
  // Entities

  /** `f"{device.address}_{description.key}"`. */
  function UniqueId(address: string, key: string): string {
    address + "_" + key
  }

  /** Within one device, different keys give different ids. */
  lemma UniqueIdSameAddress(address: string, k1: string, k2: string)
    ensures UniqueId(address, k1) == UniqueId(address, k2) <==> k1 == k2
  {
    if UniqueId(address, k1) == UniqueId(address, k2) {
      assert k1 == UniqueId(address, k1)[|address| + 1..];
      assert k2 == UniqueId(address, k2)[|address| + 1..];
    }
  }

  /** An id whose address part is shorter than the other's differs from
      it at the separator. */
  lemma SeparatorPosition(a: string, k: string, b: string, l: string)
    requires '_' !in b && |a| < |b|
    ensures UniqueId(a, k) != UniqueId(b, l)
  {
    assert UniqueId(a, k)[|a|] == '_';
    assert UniqueId(b, l)[|a|] == b[|a|];
  }

  /** Across devices whose addresses hold no underscore (a Bluetooth
      address is hex digits and colons) the id determines address and key. */
  lemma UniqueIdInjective(a: string, k: string, b: string, l: string)
    requires '_' !in a && '_' !in b
    ensures UniqueId(a, k) == UniqueId(b, l) <==> a == b && k == l
  {
    if |a| < |b| {
      SeparatorPosition(a, k, b, l);
    } else if |b| < |a| {
      SeparatorPosition(b, l, a, k);
    } else if UniqueId(a, k) == UniqueId(b, l) {
      var u := UniqueId(a, k);
      assert a == u[..|a|] == b;
      assert k == u[|a| + 1..] == l;
    }
  }

  datatype Sensor = Sensor(
    uniqueId: string,
    name: string,
    category: string,
    description: Description,
    address: string,
    initialAvailable: bool)

  /** `RenogyBLESensor(coordinator, device, description, category)`. */
  function MakeSensor(d: LegacyClient.Device, desc: Description, category: string): Sensor {
    Sensor(UniqueId(d.address, desc.key), d.name + " " + desc.name, category, desc,
           d.address, LegacyClient.IsAvailable(d))
  }

  /** `r` is the entity list built from `descs`, the i-th entity with
      category `categories[i]`. */
  predicate Built(d: LegacyClient.Device, r: seq<Sensor>, descs: seq<Description>, categories: seq<string>) {
    && |r| == |descs| == |categories|
    && forall i :: 0 <= i < |r| ==> r[i] == MakeSensor(d, descs[i], categories[i])
  }

  lemma BuiltConcat(d: LegacyClient.Device, r: seq<Sensor>, descs: seq<Description>, categories: seq<string>,
                    r2: seq<Sensor>, descs2: seq<Description>, categories2: seq<string>)
    requires Built(d, r, descs, categories) && Built(d, r2, descs2, categories2)
    ensures Built(d, r + r2, descs + descs2, categories + categories2)
  {
    forall i | 0 <= i < |r + r2|
      ensures (r + r2)[i] == MakeSensor(d, (descs + descs2)[i], (categories + categories2)[i])
    {
      if i >= |r| {
        assert (r + r2)[i] == r2[i - |r|];
      }
    }
  }

  function Repeat(category: string, n: nat): (r: seq<string>)
    ensures |r| == n && forall i :: 0 <= i < n ==> r[i] == category
  {
    seq(n, _ => category)
  }

  /** One category's entities, in description order. */
  function Group(d: LegacyClient.Device, category: string, descs: seq<Description>): (r: seq<Sensor>)
    ensures Built(d, r, descs, Repeat(category, |descs|))
  {
    seq(|descs|, i requires 0 <= i < |descs| => MakeSensor(d, descs[i], category))
  }

  /** The category of each entry of `ALL_SENSORS`, as `create_device_entities`
      assigns them. */
  const Categories: seq<string> :=
    Repeat("Battery", 8) + Repeat("PV", 6) + Repeat("Load", 5) + Repeat("Controller", 5)

  /** `create_device_entities`: the four groups in order, so the entity list
      is `ALL_SENSORS` with the device's address and name, category by
      category. */
  function CreateDeviceEntities(d: LegacyClient.Device): (r: seq<Sensor>)
    ensures Built(d, r, AllSensors, Categories)
  {
    var b := Group(d, "Battery", BatterySensors);
    var p := Group(d, "PV", PvSensors);
    var l := Group(d, "Load", LoadSensors);
    var c := Group(d, "Controller", ControllerSensors);
    BuiltConcat(d, b, BatterySensors, Repeat("Battery", 8), p, PvSensors, Repeat("PV", 6));
    BuiltConcat(d, b + p, BatterySensors + PvSensors, Repeat("Battery", 8) + Repeat("PV", 6),
                l, LoadSensors, Repeat("Load", 5));
    BuiltConcat(d, b + p + l, BatterySensors + PvSensors + LoadSensors,
                Repeat("Battery", 8) + Repeat("PV", 6) + Repeat("Load", 5),
                c, ControllerSensors, Repeat("Controller", 5));
    b + p + l + c
  }

  /** The layout of the entity list: 24 entities, the i-th carrying the i-th
      description, the id `<address>_<key>`, the name `<device name> <sensor
      name>`, the device's address and availability, and the categories
      Battery, PV, Load and Controller in blocks of 8, 6, 5 and 5. */
  lemma EntityLayout(d: LegacyClient.Device)
    ensures var r := CreateDeviceEntities(d);
      && |r| == 24
      && (forall i :: 0 <= i < |r| ==>
        && r[i].description == AllSensors[i]
        && r[i].uniqueId == UniqueId(d.address, AllSensors[i].key)
        && r[i].name == d.name + " " + AllSensors[i].name
        && r[i].address == d.address
        && r[i].initialAvailable == LegacyClient.IsAvailable(d))
      && (forall i :: 0 <= i < 8 ==> r[i].category == "Battery")
      && (forall i :: 8 <= i < 14 ==> r[i].category == "PV")
      && (forall i :: 14 <= i < 19 ==> r[i].category == "Load")
      && (forall i :: 19 <= i < 24 ==> r[i].category == "Controller")
  {
    var r := CreateDeviceEntities(d);
    forall i | 0 <= i < 24
      ensures r[i].category == Categories[i]
    {
    }
  }

  /** The ids of one device's entities are pairwise distinct. */
  lemma EntityIdsDistinct(d: LegacyClient.Device)
    ensures forall i, j :: 0 <= i < j < 24 ==>
      CreateDeviceEntities(d)[i].uniqueId != CreateDeviceEntities(d)[j].uniqueId
  {
    var r := CreateDeviceEntities(d);
    KeysDistinct();
    EntityLayout(d);
    forall i, j | 0 <= i < j < 24
      ensures r[i].uniqueId != r[j].uniqueId
    {
      UniqueIdSameAddress(d.address, AllSensors[i].key, AllSensors[j].key);
    }
  }

  // ---------------------------------------------------------------------
  // The discovery callback

  /** The callback's closure: the `entity_registry` set of addresses, the
      `devices` list (one object per address in the client's registry, so
      named by address), and every entity handed to `async_add_entities`. */
  datatype Discovery = Discovery(entityRegistry: set<string>, devices: seq<string>, entities: seq<Sensor>)

  /** `device_discovered_callback`; `None` is a missing device. */
  function DeviceDiscovered(st: Discovery, device: Option<LegacyClient.Device>): (r: (Discovery, seq<Sensor>))
    ensures r.0.entities == st.entities + r.1
    ensures st.entityRegistry <= r.0.entityRegistry
    ensures r.1 != [] <==> device.Some? && LegacyClient.IsAvailable(device.value)
                           && device.value.address !in st.entityRegistry
    ensures r.1 != [] ==> r.1 == CreateDeviceEntities(device.value)
                          && r.0.entityRegistry == st.entityRegistry + {device.value.address}
    ensures r.1 == [] ==> r.0 == st
    ensures r.1 != [] ==> r.0.devices == st.devices + (if device.value.address in st.devices then [] else [device.value.address])
  {
    match device
    case None => (st, [])
    case Some(d) =>
      if !LegacyClient.IsAvailable(d) || d.address in st.entityRegistry then (st, [])
      else
        var batch := CreateDeviceEntities(d);
        var devices := if d.address in st.devices then st.devices else st.devices + [d.address];
        (Discovery(st.entityRegistry + {d.address}, devices, st.entities + batch), batch)
  }

  /** The callback applied to each discovery in turn. */
  function ReplayDiscoveries(st: Discovery, events: seq<Option<LegacyClient.Device>>): Discovery
    decreases |events|
  {
    if |events| == 0 then st
    else ReplayDiscoveries(DeviceDiscovered(st, events[0]).0, events[1..])
  }

  /** What the callback keeps true of its closure. */
  predicate Tracked(st: Discovery) {
    && NoDuplicates(st.devices)
    && (forall a <- st.devices :: a in st.entityRegistry)
    && (forall s <- st.entities ::
          s.address in st.entityRegistry && '_' !in s.address
          && s.uniqueId == UniqueId(s.address, s.description.key))
    && (forall i, j :: 0 <= i < j < |st.entities| ==> st.entities[i].uniqueId != st.entities[j].uniqueId)
  }

  predicate PlainAddress(e: Option<LegacyClient.Device>) {
    e.Some? ==> '_' !in e.value.address
  }

  lemma DiscoveredKeepsTracked(st: Discovery, e: Option<LegacyClient.Device>)
    requires Tracked(st) && PlainAddress(e)
    ensures Tracked(DeviceDiscovered(st, e).0)
  {
    var (st', batch) := DeviceDiscovered(st, e);
    if batch != [] {
      var d := e.value;
      EntityIdsDistinct(d);
      var n := |st.entities|;
      forall i, j | 0 <= i < j < |st'.entities|
        ensures st'.entities[i].uniqueId != st'.entities[j].uniqueId
      {
        if n <= i {
          assert st'.entities[i] == batch[i - n] && st'.entities[j] == batch[j - n];
        } else if n <= j {
          var s := st.entities[i];
          assert s in st.entities;
          assert st'.entities[j] == batch[j - n];
          UniqueIdInjective(s.address, s.description.key, d.address, AllSensors[j - n].key);
        }
      }
    }
  }

  /** Over any run of discoveries of devices with plain addresses, each
      address gets its entities once: no entity id is ever handed out
      twice, and no device is listed twice. */
  lemma {:induction false} EntitiesOncePerAddress(st: Discovery, events: seq<Option<LegacyClient.Device>>)
    requires Tracked(st)
    requires forall e <- events :: PlainAddress(e)
    ensures Tracked(ReplayDiscoveries(st, events))
    ensures var f := ReplayDiscoveries(st, events);
      && NoDuplicates(f.devices)
      && forall i, j :: 0 <= i < j < |f.entities| ==> f.entities[i].uniqueId != f.entities[j].uniqueId
    decreases |events|
  {
    if |events| > 0 {
      assert events[0] in events;
      DiscoveredKeepsTracked(st, events[0]);
      EntitiesOncePerAddress(DeviceDiscovered(st, events[0]).0, events[1..]);
    }
  }

  /** A second discovery of an address that already has entities adds
      nothing, whatever the device's state by then. */
  lemma SecondDiscoveryAddsNothing(st: Discovery, d: LegacyClient.Device, later: LegacyClient.Device)
    requires later.address == d.address
    ensures DeviceDiscovered(DeviceDiscovered(st, Some(d)).0, Some(later)).1 == []
      || (DeviceDiscovered(st, Some(d)).1 == [] && !LegacyClient.IsAvailable(d))
  {
  }

  // ---------------------------------------------------------------------
  // Values and availability

  /** `native_value`, without the float conversion and range check applied
      to voltage, current, temperature and power sensors. */
  function NativeValue(d: LegacyClient.Device, desc: Description): (v: Option<Value>)
    ensures |d.parsedData| == 0 ==> v.None?
    ensures desc.rendering.Status? && |d.parsedData| > 0 ==>
      v.Some? && v.value.Text? && (v.value.s == Unknown || v.value.s in desc.rendering.table.Values)
    ensures desc.rendering.Raw? && v.Some? ==> desc.key in d.parsedData && v.value == d.parsedData[desc.key]
    ensures |d.parsedData| > 0 && desc.rendering.Status? ==>
      v == Some(Text(Lookup(desc.rendering.table, d.parsedData, desc.key)))
    ensures |d.parsedData| > 0 && desc.rendering.Raw? ==>
      v == (if desc.key in d.parsedData then Some(d.parsedData[desc.key]) else None)
  {
    if |d.parsedData| == 0 then None
    else
      match desc.rendering
      case Raw => if desc.key in d.parsedData then Some(d.parsedData[desc.key]) else None
      case Status(table) => Some(Text(Lookup(table, d.parsedData, desc.key)))
  }

  /** An entity reads only its own key: two devices with telemetry that
      agree on that key show the same value. */
  lemma NativeValueReadsOwnKey(d1: LegacyClient.Device, d2: LegacyClient.Device, desc: Description)
    requires |d1.parsedData| > 0 && |d2.parsedData| > 0
    requires desc.key in d1.parsedData <==> desc.key in d2.parsedData
    requires desc.key in d1.parsedData ==> d1.parsedData[desc.key] == d2.parsedData[desc.key]
    ensures NativeValue(d1, desc) == NativeValue(d2, desc)
  {
  }

  /** A status entity shows the table's text for a stored known code, and
      "unknown" for a code outside the table; a raw entity shows its stored
      value. */
  lemma NativeValueShowsCode(d: LegacyClient.Device, desc: Description, c: int)
    requires desc.rendering.Status? && desc.key in d.parsedData && d.parsedData[desc.key] == Int(c)
    ensures c in desc.rendering.table ==> NativeValue(d, desc) == Some(Text(desc.rendering.table[c]))
    ensures c !in desc.rendering.table ==> NativeValue(d, desc) == Some(Text(Unknown))
  {
    assert |d.parsedData| > 0 by { assert desc.key in d.parsedData.Keys; }
  }

  /** `available`: the coordinator's flag and the device's; `parsed_data`
      is a dict from construction on and never `None`. */
  function SensorAvailable(coordinatorAvailable: bool, d: LegacyClient.Device): (r: bool)
    ensures r <==> coordinatorAvailable && d.available && d.failureCount < LegacyClient.MaxFailures
  {
    coordinatorAvailable && LegacyClient.IsAvailable(d)
  }

  /** An entity whose device went unavailable stays unavailable through any
      number of reads. */
  lemma SensorStaysUnavailable(c: bool, d: LegacyClient.Device, exchanges: seq<LegacyClient.Exchange>,
                               parserInstalled: bool, decode: LegacyClient.Decoder)
    requires !LegacyClient.IsAvailable(d)
    ensures !SensorAvailable(c, LegacyClient.ReplayReads(d, exchanges, parserInstalled, decode))
  {
    LegacyClient.UnavailableStaysUnavailable(d, exchanges, parserInstalled, decode);
  }
}
